=== FILE: README.md ===
# recrawler: a Dafny model of its settings store, migrations, container, helpers and providers

ReCrawler is a WordPress plugin. It notifies search engines of changed URLs through the IndexNow protocol. This project models the plugin's self-contained logic and proves properties of it:

- **`Wposa`** (`wposa.dfy`) is the settings-page wrapper `WPOSA`. It covers:
  - the ordered section, field and sidebar-card registries, with the defaults `add_field` merges in;
  - the HTML attribute serialiser;
  - the sanitize-callback lookup and `sanitize_fields`;
  - the prefixed option store (`get_option` / `set_option`);
  - the validation chain of the reset-form action.
- **`Migrations`** and **`UpgradeVersion`** (`migrations.dfy`, `upgrade_version.dfy`) are the migration bookkeeping. They cover:
  - the version a migration method's name stands for;
  - the state machine over the persisted map from version to status, with its skip, retry, pruning and ordering rules;
  - `is_allowed`;
  - `version_compare` for dotted numeric versions.
- **`Container`** (`container.dfy`) is the dependency-injection container. It covers `set`, `get`, `has`, `make`, per-kind resolution of registered services, and autowiring of constructor parameters.
- **`Utils`** (`utils.dfy`) holds the HTTP success band, key generation from a UUID, asset locations, and the stored database version.
- **`Providers`** (`providers.dfy`) is the five IndexNow provider classes. They become one closed datatype with total accessors.

Supporting modules:

- `Wrappers`: `Option`, `Result`.
- `PhpArray`: ordered PHP arrays with string keys, as sequences of entries.
- `PhpValue`: PHP scalars and arrays, truthiness, string conversion and loose comparison with a string.
- `WpOptions`: the WordPress option table as a map from option name to value.

Things outside the plugin become parameters:

- the clock;
- the UUID `wp_generate_uuid4` draws;
- `esc_attr`, `is_callable` and `call_user_func`;
- `current_user_can` and `wp_verify_nonce`;
- the result of each migration method;
- closures registered in the container;
- class metadata, which replaces PHP reflection.

The `wposa/get_option` filter is the identity.

## Model

| member | source | states |
|---|---|---|
| Wposa.SetSections | src/Views/WPOSA.php:294-304 | A non-array is refused with `false`. An array replaces the registered sections by its values, in order. Fields and sidebar cards stay as they were. |
| Wposa.AddSection | src/Views/WPOSA.php:313-325 | A non-array is refused. Otherwise the section is appended after the existing sections, which are left unchanged. The appended section's `id` is "<prefix>_<id>", and every other key keeps the caller's value. |
| Wposa.SetFields | src/Views/WPOSA.php:333-343 | A non-array is refused. An array becomes the field lists, keyed by the same section names in the same order. |
| Wposa.FieldArgs | src/Views/WPOSA.php:353-362 | The merged field has exactly the keys id, name, desc, type and the caller's keys. The four default keys come first. No key appears twice. |
| Wposa.FieldArgsKeepsGiven | src/Views/WPOSA.php:361-362 | Every key the caller gave keeps the caller's value, even a null one. |
| Wposa.FieldArgsDefaults | src/Views/WPOSA.php:354-362 | `id`, `name` and `desc` default to "" and `type` to "text", exactly where the caller omitted them. |
| Wposa.AddField | src/Views/WPOSA.php:352-368 | The completed field is appended to the list under "<prefix>_<section>", which starts empty if missing. Every other section's list and the other registries are unchanged. |
| Wposa.AddSidebarCard | src/Views/WPOSA.php:377-389 | The card is appended after the existing cards. The total grows by one, and nothing else in the state changes. |
| Wposa.SidebarCardsTotalCounts | src/Views/WPOSA.php:377-389 | Adding n cards raises `get_sidebar_cards_total` by n. The earlier cards stay first, and the new ones follow in the order they were added. |
| Wposa.Kept | src/Views/WPOSA.php:394-407 | Exactly the entries whose value is `false` produce no attribute. The kept entries are entries of the input. The result is empty iff every value is `false`. |
| Wposa.AttributeItems | src/Views/WPOSA.php:394-408 | There is one rendered item per kept entry, in input order. Each item is the entry's rendering. |
| Wposa.ConvertArrayToAttributes | src/Views/WPOSA.php:391-411 | Input with nothing kept gives "". A single kept entry gives just that entry's rendering. |
| Wposa.ConvertSingleEntry | src/Views/WPOSA.php:396-407 | A `true` value gives the bare escaped name and `false` gives nothing. Any other value gives `name="value"`, with the value converted to a string as PHP does. |
| Wposa.ConvertAppend | src/Views/WPOSA.php:391-411 | Serialising two lists one after the other equals serialising each and joining them with a single space. This is the order and separator promise. |
| Wposa.CallbackOf | src/Views/WPOSA.php:643 | A field yields a callback iff its `sanitize_callback` is set (non-null) and callable, and the callback is that value. |
| Wposa.GetSanitizeCallback | src/Views/WPOSA.php:630-648 | An empty slug (including "0") gives `false`. Any callback returned is non-null and callable. |
| Wposa.FirstNamedIsFirst | src/Views/WPOSA.php:636-640 | The field found for a slug is the first whose `name` loosely equals it. When none is found, no field's name matches. |
| Wposa.ScanSectionsIsFirstMatch | src/Views/WPOSA.php:635-646 | Scanning the sections' field lists in order gives the decision of the first matching field in all the fields laid end to end. |
| Wposa.GetSanitizeCallbackIsFirstMatch | src/Views/WPOSA.php:630-648 | For a non-empty slug, the answer is the callback of the first field, over all sections in order, whose `name` matches. It is `false` when that field has no callable callback, with no further search. It is `false` when no field matches. |
| Wposa.SanitizeEntries | src/Views/WPOSA.php:609-617 | The keys are kept in order. An entry whose key has no callback is unchanged. An entry with a truthy callback gets the callback's result for its value. |
| Wposa.SanitizeFields | src/Views/WPOSA.php:608-620 | A non-array input is returned as is. An array keeps exactly its keys in order. Entries without a callback are unchanged. An entry with a truthy callback `cb` gets `call_user_func(cb, value)`. |
| Wposa.RemoveAllAbsent | src/Views/WPOSA.php:994 | Removing every "<prefix>_" from a name that contains none gives the name back. |
| Wposa.GetOptionIgnoresPrefix | src/Views/WPOSA.php:993-1002 | Reading with the section name "<prefix>_<section>" gives the same result as reading with the bare section name. |
| Wposa.GetOption | src/Views/WPOSA.php:993-1002 | The option is read under "<prefix>_<section>", with every "<prefix>_" first removed from the section. A set, non-null key of a stored array gives its value. A missing option, a non-array option, or a missing or null key gives the default. |
| Wposa.SetOption | src/Views/WPOSA.php:1004-1018 | A missing or empty stored option gives `false` and writes nothing. A stored array changes only the key `option`: every other key of the option and every other option are preserved, and an existing key keeps its position. The answer is true iff the array changed. A non-empty scalar throws. |
| Wposa.SetThenGetOption | src/Views/WPOSA.php:993-1018 | After `set_option` on a section holding a non-empty array, `get_option` with the same unprefixed section returns the written value, if that value is not null. |
| Wposa.ResetForm | src/Views/WPOSA.php:1178-1209 | Capability, non-empty section, non-empty nonce and nonce validity are checked in that order, and each failure gives its own error. The option is deleted and "ok" is sent iff all four pass. On any error the table is untouched. |
| Wposa.ResetThenGetOption | src/Views/WPOSA.php:1206 | After a successful reset, every key of the section reads as the caller's default. |
| PhpArray.Merge | src/Views/WPOSA.php:361-362 | `wp_parse_args` over arrays: a key present in the caller's array takes the caller's value, and any other key takes the default. The keys are the union. The defaults' keys stay first, in their order. |
| PhpArray.Restrict | src/Migrations/Migrations.php:102-103 | A kept key has its old value, and every other key is gone. Order and distinctness are preserved. |
| Migrations.IsAllowed | src/Migrations/Migrations.php:117-124 | Never allowed with the service-worker query flag. Otherwise it is allowed iff the request is cron, admin or a true `WP_CLI`. |
| Migrations.IsAllowedMonotone | src/Migrations/Migrations.php:117-124 | For the same query, a request that is cron, admin or CLI wherever another one is, is allowed whenever the other one is. |
| Migrations.FrontEndRequestRefused | src/Migrations/Migrations.php:117-124 | A request that is neither cron, admin nor a true `WP_CLI` is never allowed, whatever its query. |
| Migrations.MigrationMethods | src/Migrations/Migrations.php:59-64 | Exactly the methods whose name contains "migrate_". |
| Migrations.MigrationMethodsAppend | src/Migrations/Migrations.php:59-64 | Filtering distributes over concatenation of method lists. |
| Migrations.MigrationMethodsKeepOrder | src/Migrations/Migrations.php:59-64 | The migrations among the first k methods are a prefix of the filtered list, so the filter keeps the class's method order. |
| Migrations.VersionSet | src/Migrations/Migrations.php:66-71 | Exactly the versions some listed migration stands for. |
| Migrations.Step | src/Migrations/Migrations.php:73-97 | A migration runs iff its version is neither completed (status ≥ 0) nor newer than the plugin, and a skipped one leaves the map as it was. A run with `null` leaves a negative entry as it was, or marks a missing one STARTED. `true` stores `now` and `false` stores FAILED. No other version's entry changes. |
| Migrations.RunAll | src/Migrations/Migrations.php:68-98 | Over all migrations, only versions of listed migrations gain or change entries. Completed versions and versions newer than the plugin are untouched. Every migration run is listed and not newer than the plugin. |
| Migrations.Pending | src/Migrations/Migrations.php:73-78 | The due migrations: exactly the listed ones whose version is neither completed nor newer than the plugin. |
| Migrations.RunAllRunsPending | src/Migrations/Migrations.php:68-98 | When no two migrations share a version, the loop runs exactly the due migrations, in list order. Each migration's version ends with the entry that running that migration alone on the stored map records. |
| Migrations.InsertSorted | src/Migrations/Migrations.php:108-109 | Inserting into a map ordered by version keeps it ordered. |
| Migrations.InsertFind | src/Migrations/Migrations.php:109 | Inserting an entry under a new key adds exactly that key and keeps keys distinct. |
| Migrations.SortByVersion | src/Migrations/Migrations.php:108-109 | The result is ordered by version, and it is a permutation of the entries. Every key keeps its value. |
| Migrations.Migrate | src/Migrations/Migrations.php:56-111 | The persisted map holds the plugin version and otherwise only migration versions. The entries of existing migration versions survive. Completed entries keep their values. The map is ordered by version. A plugin version that is not a migration version is stamped `now`. |
| Migrations.MigrateRunsPending | src/Migrations/Migrations.php:56-111 | When no two migrations share a version, `migrate` runs exactly the due migrations in method order. It persists, for every migration's version, what running that migration records. |
| Migrations.MigrateKeepsLoopResult | src/Migrations/Migrations.php:100-109 | Pruning, stamping and sorting keep the loop's entry for every migration version. The plugin version is the exception: there, an entry the loop left unset becomes `now`. |
| Migrations.MigrateResetsPluginStamp | src/Migrations/Migrations.php:102-106 | Counterexample: a stamp of 50 recorded for plugin version 0.1.0 is replaced by the current time 200 when the only migration is 0.1.2. |
| Migrations.MigrateKeepingStamp | src/Migrations/Migrations.php:102-106 | Corrected pruning that also keeps the plugin version. A plugin version that is not a migration version keeps its old stamp, or gets `now` when it has none. The other guarantees of `Migrate` hold unchanged. |
| Migrations.StampIsStable | src/Migrations/Migrations.php:105-106 | With the corrected pruning, running again later leaves the plugin version's stamp as the first run wrote it. |
| Migrations.ShippedMigrationName | src/Migrations/Migrations.php:200 | `migrate_0_1_2` is a migration method standing for version 0.1.2. |
| Migrations.NewerMigrationWaits | src/Migrations/Migrations.php:73-78 | A migration newer than the plugin is not run and leaves the map unchanged. |
| Migrations.ShippedMigrationWaits | src/Migrations/Migrations.php:73-78 | With the plugin at 0.1.0, the migration for 0.1.2 is never run. |
| UpgradeVersion.RawVersion | src/Migrations/Migrations.php:134-141 | The match is absent iff the name has no digit. Otherwise it is a run of digits, each optionally followed by one underscore. |
| UpgradeVersion.RunLengthIsGreedy | src/Migrations/Migrations.php:135 | The run stops only where the pattern cannot go on: at a non-digit, and not at an underscore right after a digit. |
| UpgradeVersion.RawVersionIsLeftmostGreedy | src/Migrations/Migrations.php:134-141 | The match is the slice of the name that starts at its first digit and extends as far as `(\d_?)+` can go. |
| UpgradeVersion.UpgradeVersionOf | src/Migrations/Migrations.php:133-153 | The version is "" iff the method name contains no digit. |
| UpgradeVersion.ModernVersionRoundTrip | src/Migrations/Migrations.php:143-148 | A run with an underscore gives a version of the same length, free of underscores. Turning its dots back into underscores gives the run back. |
| UpgradeVersion.LegacyVersionShape | src/Migrations/Migrations.php:150-152 | A run of n bare digits gives a version of 2n-1 characters that alternates digit and dot. Dropping the dots gives the digits back. |
| UpgradeVersion.DotSeparatedRoundTrip | src/Migrations/Migrations.php:152 | Joining characters with dots and then removing the dots is the identity on dot-free text. |
| UpgradeVersion.UpgradeVersionAfterPrefix | src/Migrations/Migrations.php:134-139 | A digit-free prefix does not change the version a name stands for. |
| UpgradeVersion.ModernThree | src/Migrations/Migrations.php:143-148 | A digit-free prefix followed by `x_y_z` stands for `x.y.z`. |
| UpgradeVersion.LegacyThree | src/Migrations/Migrations.php:150-152 | A digit-free prefix followed by `xyz` stands for `x.y.z`. |
| UpgradeVersion.ShippedMigrationVersion | src/Migrations/Migrations.php:200 | `migrate_0_1_2` stands for "0.1.2". |
| UpgradeVersion.LegacyMigrationVersion | src/Migrations/Migrations.php:151-152 | `migrate_360` stands for "3.6.0". |
| UpgradeVersion.ParseThreeDigits | src/Migrations/Migrations.php:75 | `x.y.z` compares as the three numbers x, y, z. |
| UpgradeVersion.VersionGreaterIsStrict | src/Migrations/Migrations.php:75 | `version_compare(a, b, '>')` holds iff b ≤ a and the two versions differ in their parts. No version is greater than itself. |
| UpgradeVersion.VersionLeqTotal | src/Migrations/Migrations.php:109 | Any two versions are comparable. |
| UpgradeVersion.VersionLeqTransitive | src/Migrations/Migrations.php:109 | The version order is transitive, so sorting by it is well defined. |
| UpgradeVersion.LexLeqAntisymmetric | src/Migrations/Migrations.php:109 | Two part sequences that are each at most the other are equal. |
| UpgradeVersion.ShippedMigrationIsAhead | src/Migrations/Migrations.php:75 | `version_compare('0.1.2', '0.1.0', '>')` holds. |
| Container.NewContainer | src/Container.php:98-104 | A fresh container has no services and resolves exactly its class name and its interface name to itself. |
| Container.Set | src/Container.php:112-116 | The service is stored under the id and the id is dropped from the resolved entries. Every other id and the services registered under them are unchanged. |
| Container.Get | src/Container.php:121-131 | A resolved id is returned from the cache without change. Otherwise the resolved entry is cached under the id. Registrations are never changed and cached entries never lost. "Not found" is only reported for an id that is neither registered nor a class. |
| Container.Resolve | src/Container.php:162-180 | A registered closure is called. A registered value that is not a class name is returned as is. A registered class name is autowired, and success gives an object of that class. An unregistered class id is autowired as itself. An id that is neither registered nor a class is not found. |
| Container.ResolveObject | src/Container.php:189-214 | A class without a constructor or without parameters is built with no arguments. A success is a fresh object of that class. With parameters, it succeeds iff `resolve_parameters` does, and the object is built from exactly the resolved arguments. |
| Container.ResolveParams | src/Container.php:223-230 | On success there is one argument per parameter. An untyped parameter was optional and got its default. A typed one got the entry now cached for its type. Only untyped optional parameters always succeed and leave the container as it was. |
| Container.ResolveParamsFromCache | src/Container.php:223-230 | Every parameter is resolved in turn. A list of any length whose typed parameters are all cached and whose untyped ones are optional succeeds with the cached entries and defaults, in order, and the container is unchanged. |
| Container.ResolveParamsFirstFailure | src/Container.php:223-230 | After parameters that resolve from the cache or their defaults, the first parameter that fails makes the whole list fail with its error. |
| Container.ResolveParameter | src/Container.php:239-251 | An untyped optional parameter takes its default and an untyped required one is an error. A type naming no existing class or interface is a reflection error. An existing type is resolved by `get` of its name, and on success it is the entry cached under that name. |
| Container.AutowireDefaults | src/Container.php:121-131 | `get` of an unregistered class whose constructor parameters all have defaults succeeds. It builds an object from the defaults, in order, with a new handle, and caches it under the class. |
| Container.DependencyIsShared | src/Container.php:189-242 | Autowiring A whose constructor takes a B builds B first and passes it in. A later `get` of B returns that same object and changes nothing. |
| Container.Make | src/Container.php:148-155 | A missing class is an error. Otherwise the result is `resolve_object`'s: a class without constructor parameters is built with no arguments. With parameters, it succeeds iff `resolve_parameters` does, and the object is built from exactly the resolved arguments, with a handle not handed out before. |
| Container.MakeFromCache | src/Container.php:148-155 | When every constructor parameter resolves from the cache or its default, `make` builds an object from exactly those arguments. The only change to the container is the handle counter, so nothing is cached under the class. |
| Container.HasIgnoresResolved | src/Container.php:136-138 | `has` answers for registrations only. A fresh container has neither its own class nor its interface registered, and `get` and `make` never change what `has` answers. |
| Container.HasMeansFound | src/Container.php:136-138 | When `has` holds, `get` does not report the id as not found. |
| Container.ContainerResolvesItself | src/Container.php:98-104 | A fresh container hands itself out under its class and interface names. |
| Container.GetTwice | src/Container.php:121-131 | A second `get` returns the same entry and changes nothing. |
| Container.MakeTwice | src/Container.php:148-155 | Two calls to `make` build two distinct objects. |
| Container.MakeSimpleClass | src/Container.php:148-155 | `make` of a class whose constructor takes nothing builds a new object and neither reads nor writes the cache. |
| Container.SetThenGet | src/Container.php:112-131 | After registering a plain value that is not a class name, `get` returns exactly that value and caches it. |
| Container.SetClosureThenGet | src/Container.php:166-167 | After registering a closure, `get` returns what the closure returns. |
| Container.TypedParameterIsShared | src/Container.php:240-242 | A class-typed parameter whose class is resolved receives the cached entry. |
| Container.UnknownIdNotFound | src/Container.php:176-179 | An unknown id that is not a class fails with "not found" for exactly that id. |
| Utils.IsResponseCodeSuccess | src/Utils.php:101-103 | A non-negative code counts as a success iff its hundreds digit is 2, the HTTP status class 2. A negative code never does. |
| Utils.StripHyphens | src/Utils.php:139 | The result has no hyphen, and exactly the non-hyphen characters of the input occur in it. |
| Utils.StripHyphensLength | src/Utils.php:139 | Exactly the hyphens are removed. |
| Utils.StripHyphensConcat | src/Utils.php:139 | Stripping works piecewise over concatenation, so the other characters keep their order. |
| Utils.StripHyphensIdentity | src/Utils.php:139 | Text without hyphens is unchanged, so stripping is idempotent. |
| Utils.GenerateKey | src/Utils.php:138-140 | The key has no hyphen and contains exactly the UUID's other characters. |
| Utils.KeyOfCanonicalUuid | src/Utils.php:138-140 | A canonical 36-character UUID gives its five hex groups run together: 32 hex digits. |
| Utils.AssetUrl | src/Utils.php:59-61 | The URL is the plugin URL, then "assets/", then the asset, with no separator added. |
| Utils.AssetPath | src/Utils.php:70-72 | The path is the plugin directory, then "/assets/", then the asset. |
| Utils.AssetPathIsUrlOfDirectory | src/Utils.php:59-72 | The asset path is the asset URL built on the directory followed by "/". |
| Utils.GetDbVersion | src/Utils.php:119-121 | The stored "mihdan_index_now_version" option, or "1.0.0" when it is absent. |
| Utils.SetDbVersion | src/Utils.php:129-131 | Writes exactly that option. It reports true iff the stored value was absent or different. |
| Utils.SetThenGetDbVersion | src/Utils.php:119-131 | A following read returns the written version, and no other option changes. |
| Providers.Slug | src/Main.php:276 | Every provider slug is a value of the log table's `search_engine` enum and ends in "index-now". |
| Providers.SlugRoundTrip | src/Providers/IndexNow/IndexNow.php:14-16 | A provider's slug leads back to that provider. |
| Providers.SlugsDistinct | src/Providers/IndexNow/IndexNow.php:14-16 | No two providers share a slug. |
| Providers.Name | src/Providers/Naver/NaverIndexNow.php:18-20 | Every display name ends in "IndexNow". |
| Providers.NaverNamedLikeSeznam | src/Providers/Naver/NaverIndexNow.php:18-20 | Naver shows Seznam's display name, though its slug and endpoint differ from Seznam's. |
| Providers.ApiUrlShape | src/Providers/IndexNow/IndexNow.php:22-24 | Every endpoint is "https://", then the provider's host, then "/indexnow". |
| Providers.BotUserAgent | src/Providers/IndexNow/IndexNow.php:26-28 | The user-agent is the YandexBot string iff the provider is the generic one or Yandex. |
| Providers.GenericUsesYandexAgent | src/Providers/IndexNow/IndexNow.php:26-28 | The generic provider announces itself with Yandex's bot user-agent but posts to a different endpoint. |
| Providers.BingValues | src/Providers/Bing/BingIndexNow.php:14-28 | The constants of the Bing provider, as the source states them: slug "bing-index-now", name "Bing IndexNow", host www.bing.com, the bingbot/2.0 user-agent. |
| Providers.BingEndpoint | src/Providers/Bing/BingIndexNow.php:22-24 | The constants of the Bing provider, as the source states them: endpoint "https://www.bing.com/indexnow". |
| Providers.IndexNowValues | src/Providers/IndexNow/IndexNow.php:14-28 | The constants of the IndexNow provider, as the source states them: slug "index-now", name "IndexNow", host api.indexnow.org, the YandexBot/3.0 user-agent. |
| Providers.IndexNowEndpoint | src/Providers/IndexNow/IndexNow.php:22-24 | The constants of the IndexNow provider, as the source states them: endpoint "https://api.indexnow.org/indexnow". |
| Providers.YandexValues | src/Providers/Yandex/YandexIndexNow.php:14-28 | The constants of the Yandex provider, as the source states them: slug "yandex-index-now", name "Yandex IndexNow", host yandex.com, the YandexBot/3.0 user-agent. |
| Providers.YandexEndpoint | src/Providers/Yandex/YandexIndexNow.php:22-24 | The constants of the Yandex provider, as the source states them: endpoint "https://yandex.com/indexnow". |
| Providers.SeznamValues | src/Providers/Seznam/SeznamIndexNow.php:14-28 | The constants of the Seznam provider, as the source states them: slug "seznam-index-now", name "Seznam IndexNow", host search.seznam.cz, the SeznamBot/3.2 user-agent. |
| Providers.SeznamEndpoint | src/Providers/Seznam/SeznamIndexNow.php:22-24 | The constants of the Seznam provider, as the source states them: endpoint "https://search.seznam.cz/indexnow". |
| Providers.NaverValues | src/Providers/Naver/NaverIndexNow.php:14-28 | The constants of the Naver provider, as the source states them: slug "naver-index-now", name "Seznam IndexNow", host searchadvisor.naver.com, the Yeti/1.1 user-agent. |
| Providers.NaverEndpoint | src/Providers/Naver/NaverIndexNow.php:22-24 | The constants of the Naver provider, as the source states them: endpoint "https://searchadvisor.naver.com/indexnow". |

## Left out

- WordPress option API: `get_option`, `update_option` and `delete_option` are a map from option name to value. Autoload flags, caching and the database are not modelled. `update_option` of `false` on an absent option reports `false` and writes nothing in WordPress, because `get_option` defaults to `false`. The model writes it and reports `true`. No modelled caller writes `false`: `set_option` writes an array, and `set_db_version` writes a string.
- PHP array keys: `PhpArray` keys are strings. PHP turns integer-like string keys into integer keys, so the legacy version "3" of a one-digit migration name becomes the key 3. Lookups by the same string find the same entry either way, so the modelled paths do not depend on this.
- Time: `time()` is the parameter `now`.
- Utils.IsResponseCodeSuccess: takes an integer. PHP's `$code` is untyped, and `wp_remote_retrieve_response_code` gives `''` on error. Such a value is not a success in PHP, so the model's answer for integers covers the behaviour, but non-integer codes are not an input of the model.
- The migrations option: `migrate` reads and writes the `recrawler_versions` option. The model takes the stored map as a parameter and returns the map to write. The option read and write are not modelled.
- Migration bodies: each migration method is an opaque function from its name to `true`, `false` or `null`. That includes the body of `migrate_0_1_2` (option renames, dropping a table). A result of any other type is not modelled.
- Migration logging: the log messages are not modelled.
- Migration setup: `setup_hooks` registers a WordPress hook and is not modelled.
- The `(array)` cast of the stored migrations map: the map is an ordered array of integer statuses.
- `version_compare`: modelled only for dotted numeric versions. Alphabetic suffixes (alpha, beta, RC) and the special characters it normalises are left out. Empty parts are dropped, so "1." compares equal to "1", which PHP does not do. A migration name whose digits end in "_", such as `migrate_1_2_`, gives a version with a trailing dot ("1.2."). The model orders that version like "1.2".
- Container closures: they receive the container but cannot change it.
- Container reflection: `ReflectionClass` and `ReflectionParameter` are given class metadata (`Env`).
- `reflection_cache`: it is read but never written, so it is always empty, and `set` clearing it is not modelled.
- Nested container resolution: bounded by `fuel`. Running out (`Diverged`) stands for the unbounded recursion of a cyclic dependency. It says nothing about how PHP fails.
- Container.Get: an error result carries no container. In PHP, entries cached by nested `get` calls that finished before the exception stay cached (src/Container.php:127-128). The model does not say what the cache holds after a failed `get`.
- Container exceptions: the message texts are not modelled. Only the kind of error and the id, parameter or class it names are.
- `get_stack_trace` is not modelled.
- Loose comparison of field names: `==` between a field's `name` and a slug is modelled for non-numeric strings. Numeric-string comparison rules of PHP 8 are not modelled.
- String-offset `isset`: a field or stored option that is a string rather than an array reads every key as unset.
- `wp_parse_args` with a query string or an object argument is not modelled. Only arrays are.
- `sanitize_text_field`, `wp_unslash`, the `__()` translation and the JSON response transport of `reset_form` are not modelled. The replies carry the untranslated messages.
- Foreign WordPress calls are parameters: `esc_attr`, `is_callable`, `call_user_func`, `current_user_can` and `wp_verify_nonce`. The `wposa/get_option` filter is the identity.
- Wposa.SetSections: keeps the values of the given array in order but not its keys, which nothing in the model reads.
- Wposa.SetFields: each section's value is stored as the list of its values. A non-array section value is an empty list. Only the section keys are stated.
- Wposa.ConvertArrayToAttributes: its own contract covers zero or one kept entry. Longer inputs are covered by `Wposa.ConvertAppend` and `Wposa.ConvertSingleEntry`, not by the member itself.
- Wposa.GetSanitizeCallback: its own contract states the empty-slug case and that the callback is callable. The first-match rule is proved separately in `Wposa.GetSanitizeCallbackIsFirstMatch`.
- `get_sidebar_cards`, `get_prefix` and the constructor of `WPOSA` are plain accessors and field assignments, folded into `State`.
- HTML rendering and WordPress registration in `WPOSA` are not modelled: the `callback_*` renderers, `plugin_page`, `show_navigation`, `show_forms`, `show_help_tab_toggle`, `admin_scripts`, `hide_admin_notices`, `admin_menu`, and `admin_init`.
- Notification dispatch is not part of this model: request building, sending and logging, the webmaster providers, hooks and cron. `IndexNowAbstract`, `Logger`, `Settings.php` and `Main.php` are not part of this model apart from the `search_engine` enum.
- `Utils`: `get_user_agent`, `is_json`, `get_plugin_url`/`get_plugin_path` and the constant accessors are left out. The plugin URL and directory are parameters of the asset functions. The randomness of `wp_generate_uuid4` is an input.
- UpgradeVersion.UpgradeVersionOf: its own contract states only the empty case. The conversion of the match into a dotted version is the contract of `UpgradeVersion.ModernVersionRoundTrip` and `UpgradeVersion.LegacyVersionShape`.
- UpgradeVersion.RawVersion: its own contract states the shape of the match. Where the match starts and ends is stated by `UpgradeVersion.RawVersionIsLeftmostGreedy`.
- Migrations.RunAllRunsPending and Migrations.MigrateRunsPending: they assume no two migration methods stand for the same version, and `MigrateRunsPending` also assumes a stored map without duplicate keys. When two migrations share a version, the second sees what the first recorded, and these lemmas do not describe that case.
- Providers.BotUserAgent: its contract states which providers share the YandexBot string. The exact strings are stated per provider by the `Values` lemmas through named constants.

## Findings

| source | as written | input that shows it | evidently intended | confidence | as-written member | corrected member |
|---|---|---|---|---|---|---|
| src/Migrations/Migrations.php:102-106 | The map is pruned to the migration versions before the plugin version is stored with `?? time()`. The plugin version's old entry is removed first whenever it is not itself a migration version, so it is re-stamped with the current time on every run. | Stored map {0.1.2: 100, 0.1.0: 50}, one migration `migrate_0_1_2`, plugin version 0.1.0, time 200: the stored entry for 0.1.0 becomes 200 instead of staying 50. | The plugin version keeps the stamp of the run that first recorded it (the `??` keeps an existing value), so the pruning should spare it. | medium; not executed | Migrations.MigrateResetsPluginStamp | Migrations.MigrateKeepingStamp |

=== FILE: container.dfy ===
/** The dependency-injection container: registered services, the cache of
    resolved entries, and autowiring of constructor parameters by class.
    Reflection is replaced by a table of class descriptions, closures by an
    opaque function from closure to value, and object creation by a counter
    handing out fresh object handles. Nested `get` calls are bounded by
    `fuel`; running out of it stands for the unbounded recursion a cyclic
    dependency causes in PHP. */
module Container {
  import opened Wrappers
  import opened PhpValue

  /** What the container stores and hands out: a plain PHP value, a
      closure, or an object of a class with the arguments it was built from. */
  datatype Entry = Plain(v: Value) | Closure(fn: nat) | Obj(handle: nat, cls: string, args: seq<Entry>)

  /** A constructor parameter: its name, the class or interface it is typed
      with (`getClass()`), whether it is optional, and its default value. */
  datatype Param = Param(name: string, typeClass: Option<string>, optional: bool, default: Entry)

  /** A class: its constructor's parameters, `None` without a constructor. */
  datatype ClassInfo = ClassInfo(ctor: Option<seq<Param>>)

  /** The code the container can see: the existing classes (`class_exists`),
      the existing interfaces, and what each closure returns when called. */
  datatype Env = Env(classes: map<string, ClassInfo>, interfaces: set<string>, invoke: nat -> Entry)

  datatype Container = Container(services: map<string, Entry>, resolved: map<string, Entry>, next: nat)

  datatype Error =
    | NotFound(id: string)                       // ContainerNotFoundException
    | ClassMissing(id: string)                   // `make` of a class that does not exist
    | Unresolvable(param: string, cls: string)   // a required untyped parameter
    | Reflection(cls: string)                    // a parameter typed with an unknown class
    | Diverged                                   // nested resolution too deep

  type Outcome<T> = Result<(T, Container), Error>

  const ContainerClass: string := "Mihdan\\ReCrawler\\Container"
  const ContainerInterface: string := "Mihdan\\ReCrawler\\ContainerInterface"

  /** The container itself, as an object. */
  const Self: Entry := Obj(0, ContainerClass, [])

  /** `__construct`: the container is registered as resolved under its own
      class name and its interface name. */
  function NewContainer(): (c: Container)
    ensures c.services == map[]
    ensures c.resolved.Keys == {ContainerClass, ContainerInterface}
    ensures forall k :: k in c.resolved ==> c.resolved[k] == Self
    ensures c.next > 0
  {
    Container(map[], map[ContainerClass := Self, ContainerInterface := Self], 1)
  }

  /** `d` is `c` after resolving: the same registrations, every cached entry
      kept, and no object handle handed out twice. */
  predicate Grows(c: Container, d: Container)
  {
    && d.services == c.services
    && (forall k :: k in c.resolved ==> k in d.resolved && d.resolved[k] == c.resolved[k])
    && c.next <= d.next
  }

  /** An outcome grows the container it started from, and reports an id as
      not found only when it is neither registered nor an existing class. */
  predicate Honest<T>(env: Env, c: Container, r: Outcome<T>)
  {
    && (r.Ok? ==> Grows(c, r.value.1))
    && (r.Err? && r.error.NotFound? ==> r.error.id !in c.services && r.error.id !in env.classes)
  }

  /** `set`: register a service, forgetting what was resolved for the id. */
  function Set(c: Container, id: string, service: Entry): (d: Container)
    ensures d.services == c.services[id := service]
    ensures id !in d.resolved
    ensures forall k :: k != id ==> (k in d.resolved <==> k in c.resolved)
    ensures forall k :: k in d.resolved ==> d.resolved[k] == c.resolved[k]
    ensures d.next == c.next
  {
    Container(c.services[id := service], c.resolved - {id}, c.next)
  }

  /** `has`: whether a service is registered (a resolved or autowirable id
      does not count). */
  predicate Has(c: Container, id: string)
  {
    id in c.services
  }

  /** `new $cls(...$args)`: a fresh object. */
  function New(c: Container, cls: string, args: seq<Entry>): (r: Outcome<Entry>)
    ensures r.Ok? && r.value.0 == Obj(c.next, cls, args)
    ensures r.value.1 == c.(next := c.next + 1)
  {
    Ok((Obj(c.next, cls, args), c.(next := c.next + 1)))
  }

  /** `get`: a cached entry if there is one (even a cached `null`), else the
      resolved entry, which is then cached. */
  function Get(env: Env, c: Container, id: string, fuel: nat): (r: Outcome<Entry>)
    ensures Honest(env, c, r)
    ensures id in c.resolved ==> r == Ok((c.resolved[id], c))
    ensures r.Ok? ==> id in r.value.1.resolved && r.value.1.resolved[id] == r.value.0
    decreases fuel, 4, 0
  {
    if id in c.resolved then Ok((c.resolved[id], c))
    else
      match Resolve(env, c, id, fuel)
      case Err(e) => Err(e)
      case Ok((e, d)) => Ok((e, d.(resolved := d.resolved[id := e])))
  }

  /** `resolve`: a registered closure is called, a registered class name is
      built, any other registered value is returned as it is; an id that is
      not registered is built when it names a class and is not found
      otherwise. */
  function Resolve(env: Env, c: Container, id: string, fuel: nat): (r: Outcome<Entry>)
    ensures Honest(env, c, r)
    ensures r.Err? && r.error.NotFound? ==> r.error.id == id || id in c.services || id in env.classes
    ensures id in c.services && c.services[id].Closure? ==> r == Ok((env.invoke(c.services[id].fn), c))
    ensures id in c.services && !c.services[id].Closure? && !(c.services[id].Plain? && c.services[id].v.Str? && c.services[id].v.s in env.classes)
      ==> r == Ok((c.services[id], c))
    ensures id !in c.services && id !in env.classes ==> r == Err(NotFound(id))
    ensures id in c.services && c.services[id].Plain? && c.services[id].v.Str? && c.services[id].v.s in env.classes ==>
      && r == ResolveObject(env, c, c.services[id].v.s, fuel)
      && (r.Ok? ==> r.value.0.Obj? && r.value.0.cls == c.services[id].v.s)
    ensures id !in c.services && id in env.classes ==>
      && r == ResolveObject(env, c, id, fuel)
      && (r.Ok? ==> r.value.0.Obj? && r.value.0.cls == id)
    decreases fuel, 3, 0
  {
    if id in c.services then
      match c.services[id]
      case Closure(f) => Ok((env.invoke(f), c))
      case Plain(Str(s)) =>
        if s in env.classes then ResolveObject(env, c, s, fuel) else Ok((c.services[id], c))
      case _ => Ok((c.services[id], c))
    else if id in env.classes then ResolveObject(env, c, id, fuel)
    else Err(NotFound(id))
  }

  /** `resolve_object`: a class without a constructor or without
      parameters is built with no arguments; otherwise every parameter is
      resolved first. The new object is the last handle handed out. */
  function ResolveObject(env: Env, c: Container, cls: string, fuel: nat): (r: Outcome<Entry>)
    requires cls in env.classes
    ensures Honest(env, c, r)
    ensures r.Ok? ==> r.value.1.next > c.next && r.value.0.Obj? && r.value.0.cls == cls && r.value.0.handle == r.value.1.next - 1
    ensures env.classes[cls].ctor.None? || env.classes[cls].ctor == Some([]) ==> r == New(c, cls, [])
    ensures env.classes[cls].ctor.Some? && |env.classes[cls].ctor.value| > 0 ==>
      var args := ResolveParams(env, c, cls, env.classes[cls].ctor.value, fuel);
      && (r.Ok? <==> args.Ok?)
      && (r.Ok? ==> r.value.0.args == args.value.0 && r.value.1 == args.value.1.(next := args.value.1.next + 1))
    decreases fuel, 2, 0
  {
    match env.classes[cls].ctor
    case None => New(c, cls, [])
    case Some(ps) =>
      if |ps| == 0 then New(c, cls, [])
      else
        match ResolveParams(env, c, cls, ps, fuel)
        case Err(e) => Err(e)
        case Ok((args, d)) => New(d, cls, args)
  }

  /** `resolve_parameters`: the parameters in order; the first failure
      stops the others from being resolved. */
  function ResolveParams(env: Env, c: Container, cls: string, ps: seq<Param>, fuel: nat): (r: Outcome<seq<Entry>>)
    ensures Honest(env, c, r)
    ensures r.Ok? ==> |r.value.0| == |ps|
    ensures r.Ok? ==> forall i :: 0 <= i < |ps| && ps[i].typeClass.None? ==> ps[i].optional && r.value.0[i] == ps[i].default
    ensures r.Ok? ==> forall i :: 0 <= i < |ps| && ps[i].typeClass.Some? ==>
      ps[i].typeClass.value in r.value.1.resolved && r.value.0[i] == r.value.1.resolved[ps[i].typeClass.value]
    ensures (forall i :: 0 <= i < |ps| ==> ps[i].typeClass.None? && ps[i].optional) ==> r.Ok? && r.value.1 == c
    decreases fuel, 1, |ps|
  {
    if |ps| == 0 then Ok(([], c))
    else
      match ResolveParameter(env, c, cls, ps[0], fuel)
      case Err(e) => Err(e)
      case Ok((a, d)) =>
        match ResolveParams(env, d, cls, ps[1..], fuel)
        case Err(e) => Err(e)
        case Ok((rest, d2)) => Ok(([a] + rest, d2))
  }

  /** `resolve_parameter`: a parameter typed with a class or interface is
      fetched with `get`; otherwise an optional parameter takes its default
      and a required one cannot be resolved. A type naming no existing class
      or interface is a reflection failure. */
  function ResolveParameter(env: Env, c: Container, cls: string, p: Param, fuel: nat): (r: Outcome<Entry>)
    ensures Honest(env, c, r)
    ensures p.typeClass.None? && p.optional ==> r == Ok((p.default, c))
    ensures p.typeClass.None? && !p.optional ==> r == Err(Unresolvable(p.name, cls))
    ensures p.typeClass.Some? && p.typeClass.value !in env.classes && p.typeClass.value !in env.interfaces ==> r == Err(Reflection(cls))
    ensures p.typeClass.Some? && (p.typeClass.value in env.classes || p.typeClass.value in env.interfaces) && fuel > 0 ==>
      r == Get(env, c, p.typeClass.value, fuel - 1)
    ensures p.typeClass.Some? && r.Ok? ==> p.typeClass.value in r.value.1.resolved && r.value.1.resolved[p.typeClass.value] == r.value.0
    decreases fuel, 0, 0
  {
    match p.typeClass
    case Some(tc) =>
      if tc !in env.classes && tc !in env.interfaces then Err(Reflection(cls))
      else if fuel == 0 then Err(Diverged)
      else Get(env, c, tc, fuel - 1)
    case None =>
      if p.optional then Ok((p.default, c)) else Err(Unresolvable(p.name, cls))
  }

  /** `make`: a new object of an existing class every time, never cached
      under its own id. */
  function Make(env: Env, c: Container, id: string, fuel: nat): (r: Outcome<Entry>)
    ensures id !in env.classes ==> r == Err(ClassMissing(id))
    ensures Honest(env, c, r)
    ensures r.Ok? ==> r.value.0.Obj? && r.value.0.cls == id && c.next <= r.value.0.handle < r.value.1.next
    ensures id in env.classes && (env.classes[id].ctor.None? || env.classes[id].ctor == Some([])) ==> r == New(c, id, [])
    ensures id in env.classes && env.classes[id].ctor.Some? && |env.classes[id].ctor.value| > 0 ==>
      var args := ResolveParams(env, c, id, env.classes[id].ctor.value, fuel);
      && (r.Ok? <==> args.Ok?)
      && (r.Ok? ==> r.value.0.args == args.value.0 && r.value.1 == args.value.1.(next := args.value.1.next + 1))
  {
    if id !in env.classes then Err(ClassMissing(id)) else ResolveObject(env, c, id, fuel)
  }

  // ---------------------------------------------------------------------
  // Properties

  /** `has` answers for registrations only: a fresh container hands itself
      out but has nothing registered, and resolving never registers anything. */
  lemma HasIgnoresResolved(env: Env, c: Container, id: string, k: string, fuel: nat)
    ensures !Has(NewContainer(), ContainerInterface) && !Has(NewContainer(), ContainerClass)
    ensures Get(env, c, id, fuel).Ok? ==> (Has(Get(env, c, id, fuel).value.1, k) <==> Has(c, k))
    ensures Make(env, c, id, fuel).Ok? ==> (Has(Make(env, c, id, fuel).value.1, k) <==> Has(c, k))
  {
  }

  /** The PSR-11 promise: when `has($id)` holds, `get($id)` does not report
      that id as not found. */
  lemma HasMeansFound(env: Env, c: Container, id: string, fuel: nat)
    requires Has(c, id)
    ensures var r := Get(env, c, id, fuel); !(r.Err? && r.error == NotFound(id))
  {
  }

  /** A fresh container hands itself out under its interface name. */
  lemma ContainerResolvesItself(env: Env, fuel: nat)
    ensures Get(env, NewContainer(), ContainerInterface, fuel) == Ok((Self, NewContainer()))
    ensures Get(env, NewContainer(), ContainerClass, fuel) == Ok((Self, NewContainer()))
  {
  }

  /** `get` is a singleton: asking again returns the same entry and changes
      nothing. */
  lemma GetTwice(env: Env, c: Container, id: string, fuel: nat, fuel2: nat)
    requires Get(env, c, id, fuel).Ok?
    ensures var (e, d) := Get(env, c, id, fuel).value; Get(env, d, id, fuel2) == Ok((e, d))
  {
  }

  /** `make` is not: two calls build two distinct objects. */
  lemma MakeTwice(env: Env, c: Container, id: string, fuel: nat)
    requires Make(env, c, id, fuel).Ok?
    requires Make(env, Make(env, c, id, fuel).value.1, id, fuel).Ok?
    ensures var (o1, d) := Make(env, c, id, fuel).value;
      var (o2, _) := Make(env, d, id, fuel).value;
      o1.handle != o2.handle
  {
  }

  /** `make` of a class whose constructor takes nothing builds the object
      without touching the cache, even when the class was resolved before. */
  lemma MakeSimpleClass(env: Env, c: Container, id: string, fuel: nat)
    requires id in env.classes && (env.classes[id].ctor.None? || env.classes[id].ctor == Some([]))
    ensures Make(env, c, id, fuel) == Ok((Obj(c.next, id, []), c.(next := c.next + 1)))
  {
  }

  /** Registering a plain value that is not a class name makes `get`
      return exactly that value, whatever was resolved for the id before. */
  lemma SetThenGet(env: Env, c: Container, id: string, v: Value, fuel: nat)
    requires !(v.Str? && v.s in env.classes)
    ensures var d := Set(c, id, Plain(v));
      Get(env, d, id, fuel) == Ok((Plain(v), d.(resolved := d.resolved[id := Plain(v)])))
  {
  }

  /** Registering a closure makes `get` return what the closure returns. */
  lemma SetClosureThenGet(env: Env, c: Container, id: string, f: nat, fuel: nat)
    ensures var d := Set(c, id, Closure(f));
      Get(env, d, id, fuel).Ok? && Get(env, d, id, fuel).value.0 == env.invoke(f)
  {
  }

  /** A class-typed parameter whose class is already resolved receives
      that cached entry. */
  lemma TypedParameterIsShared(env: Env, c: Container, cls: string, p: Param, fuel: nat)
    requires p.typeClass.Some? && p.typeClass.value in env.classes && p.typeClass.value in c.resolved
    requires fuel > 0
    ensures ResolveParameter(env, c, cls, p, fuel) == Ok((c.resolved[p.typeClass.value], c))
  {
  }

  /** A parameter that resolves without building anything: its type names
      an existing class or interface already cached, or it is untyped and
      optional. */
  predicate Resolvable(env: Env, c: Container, p: Param, fuel: nat)
  {
    match p.typeClass
    case Some(tc) => (tc in env.classes || tc in env.interfaces) && tc in c.resolved && fuel > 0
    case None => p.optional
  }

  /** The argument such a parameter receives: the cached entry, or the
      default. */
  function CachedArgument(c: Container, p: Param): Entry
    requires p.typeClass.Some? ==> p.typeClass.value in c.resolved
  {
    match p.typeClass
    case Some(tc) => c.resolved[tc]
    case None => p.default
  }

  /** `resolve_parameters` resolves every parameter in turn: a list whose
      parameters all resolve from the cache or their defaults succeeds, with
      those arguments in order and the container unchanged, whatever its
      length and however typed and untyped parameters interleave. */
  lemma {:induction false} ResolveParamsFromCache(env: Env, c: Container, cls: string, ps: seq<Param>, fuel: nat)
    requires forall i :: 0 <= i < |ps| ==> Resolvable(env, c, ps[i], fuel)
    ensures var r := ResolveParams(env, c, cls, ps, fuel);
      && r.Ok? && r.value.1 == c && |r.value.0| == |ps|
      && forall i :: 0 <= i < |ps| ==> r.value.0[i] == CachedArgument(c, ps[i])
    decreases |ps|
  {
    if |ps| > 0 {
      assert Resolvable(env, c, ps[0], fuel);
      assert ResolveParameter(env, c, cls, ps[0], fuel) == Ok((CachedArgument(c, ps[0]), c));
      forall i | 0 <= i < |ps[1..]| ensures Resolvable(env, c, ps[1..][i], fuel) {
        assert ps[1..][i] == ps[i + 1];
      }
      ResolveParamsFromCache(env, c, cls, ps[1..], fuel);
      var rest := ResolveParams(env, c, cls, ps[1..], fuel).value.0;
      forall i | 0 < i < |ps| ensures ([CachedArgument(c, ps[0])] + rest)[i] == CachedArgument(c, ps[i]) {
        assert ps[1..][i - 1] == ps[i];
      }
    }
  }

  /** The first parameter that fails decides the error: after parameters
      that all resolve from the cache or their defaults, a parameter that
      cannot be resolved makes the whole list fail with its error, and the
      parameters after it are never looked at. */
  lemma {:induction false} ResolveParamsFirstFailure(env: Env, c: Container, cls: string, ps: seq<Param>, fuel: nat, k: nat)
    requires k < |ps|
    requires forall i :: 0 <= i < k ==> Resolvable(env, c, ps[i], fuel)
    requires ResolveParameter(env, c, cls, ps[k], fuel).Err?
    ensures ResolveParams(env, c, cls, ps, fuel) == Err(ResolveParameter(env, c, cls, ps[k], fuel).error)
    decreases k
  {
    if k > 0 {
      assert Resolvable(env, c, ps[0], fuel);
      assert ResolveParameter(env, c, cls, ps[0], fuel) == Ok((CachedArgument(c, ps[0]), c));
      forall i | 0 <= i < k - 1 ensures Resolvable(env, c, ps[1..][i], fuel) {
        assert ps[1..][i] == ps[i + 1];
      }
      assert ps[1..][k - 1] == ps[k];
      ResolveParamsFirstFailure(env, c, cls, ps[1..], fuel, k - 1);
    }
  }

  /** `make` of a class whose constructor parameters all resolve from the
      cache or their defaults builds a new object from exactly those
      arguments; the only change to the container is the handle counter, so
      nothing is cached under the class. */
  lemma MakeFromCache(env: Env, c: Container, id: string, fuel: nat)
    requires id in env.classes && env.classes[id].ctor.Some?
    requires forall i :: 0 <= i < |env.classes[id].ctor.value| ==> Resolvable(env, c, env.classes[id].ctor.value[i], fuel)
    ensures var r := Make(env, c, id, fuel); var ps := env.classes[id].ctor.value;
      && r.Ok?
      && r.value.0.Obj? && r.value.0.cls == id && r.value.0.handle == c.next
      && |r.value.0.args| == |ps|
      && (forall i :: 0 <= i < |ps| ==> Resolvable(env, c, ps[i], fuel) && r.value.0.args[i] == CachedArgument(c, ps[i]))
      && r.value.1 == c.(next := c.next + 1)
  {
    var ps := env.classes[id].ctor.value;
    ResolveParamsFromCache(env, c, id, ps, fuel);
    if |ps| == 0 {
      assert ps == [];
    }
  }

  /** Autowiring of a class whose constructor parameters are all untyped
      and optional: `get` builds it from the parameters' defaults, in order. */
  lemma AutowireDefaults(env: Env, c: Container, cls: string, fuel: nat)
    requires cls in env.classes && cls !in c.services && cls !in c.resolved
    requires env.classes[cls].ctor.Some?
    requires forall i :: 0 <= i < |env.classes[cls].ctor.value| ==>
      env.classes[cls].ctor.value[i].typeClass.None? && env.classes[cls].ctor.value[i].optional
    ensures var r := Get(env, c, cls, fuel); var ps := env.classes[cls].ctor.value;
      && r.Ok?
      && r.value.0.Obj? && r.value.0.cls == cls && r.value.0.handle == c.next
      && |r.value.0.args| == |ps|
      && (forall i :: 0 <= i < |ps| ==> r.value.0.args[i] == ps[i].default)
      && r.value.1.resolved == c.resolved[cls := r.value.0]
  {
    var ps := env.classes[cls].ctor.value;
    if |ps| > 0 {
      var args := ResolveParams(env, c, cls, ps, fuel);
      assert args.Ok? && args.value.1 == c;
    }
  }

  /** Autowiring shares dependencies: building a class whose constructor
      takes one parameter typed with another class first builds and caches
      that dependency, and a later `get` of the dependency returns the very
      object that was injected. */
  lemma DependencyIsShared(env: Env, c: Container, a: string, b: string, fuel: nat)
    requires a in env.classes && b in env.classes && a != b
    requires a !in c.services && a !in c.resolved && b !in c.services && b !in c.resolved
    requires env.classes[a].ctor.Some? && |env.classes[a].ctor.value| == 1
    requires env.classes[a].ctor.value[0].typeClass == Some(b)
    requires env.classes[b].ctor.None?
    requires fuel > 0
    ensures var r := Get(env, c, a, fuel);
      && r.Ok?
      && r.value.0 == Obj(c.next + 1, a, [Obj(c.next, b, [])])
      && Get(env, r.value.1, b, fuel) == Ok((Obj(c.next, b, []), r.value.1))
  {
    var p := env.classes[a].ctor.value[0];
    var dep := Get(env, c, b, fuel - 1);
    assert dep == Ok((Obj(c.next, b, []), c.(next := c.next + 1, resolved := c.resolved[b := Obj(c.next, b, [])])));
    assert ResolveParameter(env, c, a, p, fuel) == dep;
  }

  /** Without a registration and without a class of that name, `get` fails
      with "not found" for exactly that id. */
  lemma UnknownIdNotFound(env: Env, c: Container, id: string, fuel: nat)
    requires id !in c.resolved && id !in c.services && id !in env.classes
    ensures Get(env, c, id, fuel) == Err(NotFound(id))
  {
  }
}

=== FILE: migrations.dfy ===
/** The migration bookkeeping of `Migrations`: which migrations run, what is
    recorded for each in the persisted map from version to status, and how
    that map is pruned and ordered. A status is `STARTED` (-1), `FAILED` (-2)
    or the time a migration completed (>= 0). The clock is a parameter, and
    each migration method is an opaque function from its name to its result. */
module Migrations {
  import opened Wrappers
  import opened PhpArray
  import opened UpgradeVersion

  const STARTED: int := -1
  const FAILED: int := -2

  /** What a migration method returns: `true`, `false`, or `null` for a
      migration that wants to be called again. */
  datatype Outcome = Completed | Failed | Again

  // ---------------------------------------------------------------------
  // When migrations may run

  /** The parts of a request `is_allowed` looks at. `cli` is the `WP_CLI`
      constant, `None` when it is not defined. */
  datatype Request = Request(query: set<string>, doingCron: bool, isAdmin: bool, cli: Option<bool>)

  /** `is_allowed`: never for a service-worker request; otherwise during
      cron, in the admin, or under WP-CLI. */
  function IsAllowed(req: Request): (r: bool)
    ensures "service-worker" in req.query ==> !r
    ensures "service-worker" !in req.query ==> (r <==> req.doingCron || req.isAdmin || req.cli == Some(true))
  {
    if "service-worker" in req.query then false
    else req.doingCron || req.isAdmin || (req.cli.Some? && req.cli.value)
  }

  /** A request with more of the allowing contexts, and the same query, is
      allowed whenever the first one is: the contexts only ever add
      permission, and only the query flag takes it away. */
  lemma IsAllowedMonotone(a: Request, b: Request)
    requires a.query == b.query
    requires a.doingCron ==> b.doingCron
    requires a.isAdmin ==> b.isAdmin
    requires a.cli == Some(true) ==> b.cli == Some(true)
    ensures IsAllowed(a) ==> IsAllowed(b)
  {
  }

  /** An ordinary front-end request (not cron, not the admin, no true
      `WP_CLI`) never runs migrations, whatever its query. */
  lemma FrontEndRequestRefused(req: Request)
    requires !req.doingCron && !req.isAdmin && req.cli != Some(true)
    ensures !IsAllowed(req)
  {
  }

  // ---------------------------------------------------------------------
  // Which methods are migrations

  /** `strpos($s, $pat) !== false`. */
  predicate ContainsText(s: string, pat: string)
    decreases |s|
  {
    |pat| <= |s| && (s[..|pat|] == pat || ContainsText(s[1..], pat))
  }

  /** The class's methods whose name contains "migrate_", in order. */
  function MigrationMethods(methods: seq<string>): (r: seq<string>)
    ensures forall m :: m in r <==> m in methods && ContainsText(m, "migrate_")
  {
    if |methods| == 0 then []
    else (if ContainsText(methods[0], "migrate_") then [methods[0]] else []) + MigrationMethods(methods[1..])
  }

  /** The versions the given migration methods stand for. */
  function VersionSet(ms: seq<string>): (vs: set<string>)
    ensures forall m :: m in ms ==> UpgradeVersionOf(m) in vs
    ensures forall v :: v in vs ==> exists m :: m in ms && UpgradeVersionOf(m) == v
  {
    if |ms| == 0 then {} else {UpgradeVersionOf(ms[0])} + VersionSet(ms[1..])
  }

  // ---------------------------------------------------------------------
  // One migration

  /** The version has a recorded status >= 0: it completed. */
  predicate Done(migrated: Arr<int>, v: string)
  {
    Find(migrated, v).Some? && Find(migrated, v).value >= 0
  }

  /** A migration is not run when its version completed before or is newer
      than the plugin. */
  predicate Skips(migrated: Arr<int>, v: string, plugin: string)
  {
    Done(migrated, v) || VersionGreater(v, plugin)
  }

  /** One iteration of the loop in `migrate`, for the migration method
      `name`. The boolean says whether the method was run. A skipped
      migration leaves the map as it was. Otherwise a version without an entry
      is first marked STARTED, an existing negative entry is kept, and then the
      result is recorded: `null` leaves the entry, `true` stores `now`, `false`
      stores FAILED. No other version's entry changes. */
  function Step(migrated: Arr<int>, name: string, plugin: string, run: string -> Outcome, now: nat): (r: (Arr<int>, bool))
    ensures var v := UpgradeVersionOf(name);
      && (r.1 <==> !Skips(migrated, v, plugin))
      && (!r.1 ==> r.0 == migrated)
      && (forall k :: k != v ==> Find(r.0, k) == Find(migrated, k))
      && (r.1 && run(name) == Again ==> Find(r.0, v) == Some(Find(migrated, v).GetOr(STARTED)))
      && (r.1 && run(name) == Completed ==> Find(r.0, v) == Some(now))
      && (r.1 && run(name) == Failed ==> Find(r.0, v) == Some(FAILED))
      && KeySet(r.0) == KeySet(migrated) + (if r.1 then {v} else {})
      && (Distinct(migrated) ==> Distinct(r.0))
  {
    var v := UpgradeVersionOf(name);
    if Skips(migrated, v, plugin) then (migrated, false)
    else
      var marked := if Find(migrated, v).None? then Put(migrated, v, STARTED) else migrated;
      match run(name)
      case Again => (marked, true)
      case Completed => (Put(marked, v, now), true)
      case Failed => (Put(marked, v, FAILED), true)
  }

  /** The loop of `migrate` over the migration methods: the resulting map
      and the methods that were run, in order. */
  function RunAll(migrated: Arr<int>, ms: seq<string>, plugin: string, run: string -> Outcome, now: nat): (r: (Arr<int>, seq<string>))
    ensures KeySet(migrated) <= KeySet(r.0) <= KeySet(migrated) + VersionSet(ms)
    ensures forall k :: k !in VersionSet(ms) ==> Find(r.0, k) == Find(migrated, k)
    ensures forall k :: Done(migrated, k) ==> Find(r.0, k) == Find(migrated, k)
    ensures forall k :: VersionGreater(k, plugin) ==> Find(r.0, k) == Find(migrated, k)
    ensures forall m :: m in r.1 ==> m in ms && !VersionGreater(UpgradeVersionOf(m), plugin)
    ensures Distinct(migrated) ==> Distinct(r.0)
    decreases |ms|
  {
    if |ms| == 0 then (migrated, [])
    else
      var (m1, ran) := Step(migrated, ms[0], plugin, run, now);
      var (m2, rest) := RunAll(m1, ms[1..], plugin, run, now);
      (m2, (if ran then [ms[0]] else []) + rest)
  }

  /** No two of the migrations stand for the same version. */
  predicate DistinctVersions(ms: seq<string>)
  {
    forall i, j :: 0 <= i < j < |ms| ==> UpgradeVersionOf(ms[i]) != UpgradeVersionOf(ms[j])
  }

  /** The reference answer to "which migrations are due": those whose
      version is neither completed in `migrated` nor newer than the plugin,
      in the order given. */
  function Pending(migrated: Arr<int>, ms: seq<string>, plugin: string): (r: seq<string>)
    ensures forall m :: m in r <==> m in ms && !Skips(migrated, UpgradeVersionOf(m), plugin)
  {
    if |ms| == 0 then []
    else (if Skips(migrated, UpgradeVersionOf(ms[0]), plugin) then [] else [ms[0]]) + Pending(migrated, ms[1..], plugin)
  }

  /** Which migrations are due depends only on the entries of their versions. */
  lemma {:induction false} PendingFrame(a: Arr<int>, b: Arr<int>, ms: seq<string>, plugin: string)
    requires forall m :: m in ms ==> Find(a, UpgradeVersionOf(m)) == Find(b, UpgradeVersionOf(m))
    ensures Pending(a, ms, plugin) == Pending(b, ms, plugin)
  {
    if |ms| > 0 {
      assert ms[0] in ms;
      assert forall m :: m in ms[1..] ==> m in ms;
      PendingFrame(a, b, ms[1..], plugin);
    }
  }

  /** What one step does to its own version depends only on that version's
      entry. */
  lemma StepLocal(a: Arr<int>, b: Arr<int>, name: string, plugin: string, run: string -> Outcome, now: nat)
    requires Find(a, UpgradeVersionOf(name)) == Find(b, UpgradeVersionOf(name))
    ensures Step(a, name, plugin, run, now).1 == Step(b, name, plugin, run, now).1
    ensures Find(Step(a, name, plugin, run, now).0, UpgradeVersionOf(name)) == Find(Step(b, name, plugin, run, now).0, UpgradeVersionOf(name))
  {
  }

  /** The loop runs exactly the due migrations, in order, and each due
      migration's version ends up with what running that migration records
      (`Step` on the map as it was before the loop), when no two migrations
      stand for the same version. */
  lemma {:induction false} RunAllRunsPending(migrated: Arr<int>, ms: seq<string>, plugin: string, run: string -> Outcome, now: nat)
    requires DistinctVersions(ms)
    ensures RunAll(migrated, ms, plugin, run, now).1 == Pending(migrated, ms, plugin)
    ensures forall m :: m in ms ==>
      Find(RunAll(migrated, ms, plugin, run, now).0, UpgradeVersionOf(m)) == Find(Step(migrated, m, plugin, run, now).0, UpgradeVersionOf(m))
    decreases |ms|
  {
    if |ms| > 0 {
      var v := UpgradeVersionOf(ms[0]);
      var (m1, ran) := Step(migrated, ms[0], plugin, run, now);
      var tail := ms[1..];
      assert DistinctVersions(tail) by {
        forall i, j | 0 <= i < j < |tail| ensures UpgradeVersionOf(tail[i]) != UpgradeVersionOf(tail[j]) {
          assert tail[i] == ms[i + 1] && tail[j] == ms[j + 1];
        }
      }
      assert forall m :: m in tail ==> UpgradeVersionOf(m) != v by {
        forall m | m in tail ensures UpgradeVersionOf(m) != v {
          var j :| 0 <= j < |tail| && tail[j] == m;
          assert ms[j + 1] == m;
        }
      }
      RunAllRunsPending(m1, tail, plugin, run, now);
      PendingFrame(m1, migrated, tail, plugin);
      var (m2, rest) := RunAll(m1, tail, plugin, run, now);
      assert v !in VersionSet(tail);
      forall m | m in ms
        ensures Find(m2, UpgradeVersionOf(m)) == Find(Step(migrated, m, plugin, run, now).0, UpgradeVersionOf(m))
      {
        if m != ms[0] {
          assert m in tail;
          StepLocal(m1, migrated, m, plugin, run, now);
        }
      }
    }
  }

  /** Filtering the class's methods keeps their order: it distributes over
      concatenation. */
  lemma {:induction false} MigrationMethodsAppend(a: seq<string>, b: seq<string>)
    ensures MigrationMethods(a + b) == MigrationMethods(a) + MigrationMethods(b)
    decreases |a|
  {
    if |a| == 0 {
      assert a + b == b;
    } else {
      assert (a + b)[0] == a[0];
      assert (a + b)[1..] == a[1..] + b;
      MigrationMethodsAppend(a[1..], b);
    }
  }

  /** The migrations among the first `k` methods come first in the
      filtered list, in the same order. */
  lemma MigrationMethodsKeepOrder(methods: seq<string>, k: nat)
    requires k <= |methods|
    ensures MigrationMethods(methods[..k]) <= MigrationMethods(methods)
  {
    assert methods == methods[..k] + methods[k..];
    MigrationMethodsAppend(methods[..k], methods[k..]);
  }

  // ---------------------------------------------------------------------
  // Ordering by version

  /** The entries are in ascending version order. */
  predicate SortedByVersion(s: Arr<int>)
  {
    forall i, j :: 0 <= i < j < |s| ==> VersionLeq(s[i].0, s[j].0)
  }

  /** Inserting `x` before the first entry whose version is not older. */
  function Insert(x: (string, int), s: Arr<int>): (r: Arr<int>)
    ensures multiset(r) == multiset(s) + multiset{x}
  {
    if |s| == 0 then [x]
    else if VersionLeq(x.0, s[0].0) then (assert ([x] + s)[1..] == s; [x] + s)
    else
      var t := Insert(x, s[1..]);
      assert s == [s[0]] + s[1..];
      assert ([s[0]] + t)[1..] == t;
      [s[0]] + t
  }

  /** Insertion adds exactly the inserted key. */
  lemma {:induction false} InsertKeySet(x: (string, int), s: Arr<int>)
    ensures KeySet(Insert(x, s)) == KeySet(s) + {x.0}
  {
    if |s| > 0 && !VersionLeq(x.0, s[0].0) {
      InsertKeySet(x, s[1..]);
      var t := Insert(x, s[1..]);
      assert ([s[0]] + t)[1..] == t;
    } else if |s| > 0 {
      assert ([x] + s)[1..] == s;
    }
  }

  /** Every entry after insertion is the inserted one or was there before. */
  lemma InsertMembers(x: (string, int), s: Arr<int>)
    ensures forall e :: e in Insert(x, s) ==> e == x || e in s
  {
    forall e | e in Insert(x, s) ensures e == x || e in s {
      assert e in multiset(Insert(x, s));
    }
  }

  /** Insertion keeps the entries in version order. */
  lemma {:induction false} InsertSorted(x: (string, int), s: Arr<int>)
    requires SortedByVersion(s)
    ensures SortedByVersion(Insert(x, s))
  {
    if |s| == 0 {
    } else if VersionLeq(x.0, s[0].0) {
      forall j | 0 < j < |s| + 1 ensures VersionLeq(x.0, ([x] + s)[j].0) {
        if j > 1 {
          VersionLeqTransitive(x.0, s[0].0, s[j - 1].0);
        }
      }
    } else {
      var t := Insert(x, s[1..]);
      InsertSorted(x, s[1..]);
      InsertMembers(x, s[1..]);
      VersionLeqTotal(x.0, s[0].0);
      forall j | 0 <= j < |t| ensures VersionLeq(s[0].0, t[j].0) {
        assert t[j] in t;
        if t[j] != x {
          assert t[j] in s[1..];
          var i :| 0 <= i < |s[1..]| && s[1..][i] == t[j];
          assert s[i + 1] == t[j];
        }
      }
      assert Insert(x, s) == [s[0]] + t;
    }
  }

  /** Inserting an entry under a new key adds exactly that key. */
  lemma {:induction false} InsertFind(x: (string, int), s: Arr<int>)
    requires x.0 !in KeySet(s)
    ensures Distinct(s) ==> Distinct(Insert(x, s))
    ensures forall k :: Find(Insert(x, s), k) == if k == x.0 then Some(x.1) else Find(s, k)
  {
    InsertKeySet(x, s);
    if |s| == 0 || VersionLeq(x.0, s[0].0) {
    } else {
      InsertKeySet(x, s[1..]);
      InsertFind(x, s[1..]);
      assert Insert(x, s) == [s[0]] + Insert(x, s[1..]);
    }
  }

  /** `uksort($migrated, 'version_compare')`, as an insertion sort. */
  function SortByVersion(s: Arr<int>): (r: Arr<int>)
    ensures SortedByVersion(r)
    ensures multiset(r) == multiset(s)
    ensures KeySet(r) == KeySet(s)
    ensures Distinct(s) ==> Distinct(r) && forall k :: Find(r, k) == Find(s, k)
  {
    if |s| == 0 then []
    else
      assert s == [s[0]] + s[1..];
      var t := SortByVersion(s[1..]);
      InsertSorted(s[0], t);
      InsertKeySet(s[0], t);
      if Distinct(s) then
        InsertFind(s[0], t);
        Insert(s[0], t)
      else
        Insert(s[0], t)
  }

  // ---------------------------------------------------------------------
  // The whole run

  /** `migrate` as written: run the migrations, keep only the entries of
      existing migrations' versions, give the plugin version an entry (its
      old one if it survived the pruning, else `now`), and order the map by
      version. Returns the map to persist under the `recrawler_versions` option and the
      methods that were run. */
  function Migrate(migrated: Arr<int>, methods: seq<string>, plugin: string, run: string -> Outcome, now: nat): (r: (Arr<int>, seq<string>))
    ensures var vs := VersionSet(MigrationMethods(methods));
      && plugin in KeySet(r.0)
      && KeySet(r.0) <= vs + {plugin}
      && KeySet(migrated) * vs <= KeySet(r.0)
      && SortedByVersion(r.0)
      && (Distinct(migrated) ==> Distinct(r.0))
      && (Distinct(migrated) ==> forall k :: k in vs && k != plugin && Done(migrated, k) ==> Find(r.0, k) == Find(migrated, k))
      && (Distinct(migrated) && plugin !in vs ==> Find(r.0, plugin) == Some(now))
    ensures forall m :: m in r.1 ==> m in methods && ContainsText(m, "migrate_")
  {
    var ms := MigrationMethods(methods);
    var vs := VersionSet(ms);
    var (looped, ran) := RunAll(migrated, ms, plugin, run, now);
    var pruned := Restrict(looped, vs);
    var stamped := if Find(pruned, plugin).Some? then pruned else Put(pruned, plugin, now);
    (SortByVersion(stamped), ran)
  }

  /** `migrate` runs exactly the due migrations, in the order of the class's
      methods, and persists for each migration's version what running it
      recorded, when no two migrations stand for the same version. */
  lemma MigrateRunsPending(migrated: Arr<int>, methods: seq<string>, plugin: string, run: string -> Outcome, now: nat)
    requires Distinct(migrated)
    requires DistinctVersions(MigrationMethods(methods))
    ensures Migrate(migrated, methods, plugin, run, now).1 == Pending(migrated, MigrationMethods(methods), plugin)
    ensures forall m :: m in MigrationMethods(methods) ==>
      Find(Migrate(migrated, methods, plugin, run, now).0, UpgradeVersionOf(m)) == Find(Step(migrated, m, plugin, run, now).0, UpgradeVersionOf(m))
  {
    var ms := MigrationMethods(methods);
    RunAllRunsPending(migrated, ms, plugin, run, now);
    forall m | m in ms
      ensures Find(Migrate(migrated, methods, plugin, run, now).0, UpgradeVersionOf(m)) == Find(Step(migrated, m, plugin, run, now).0, UpgradeVersionOf(m))
    {
      var v := UpgradeVersionOf(m);
      MigrateKeepsLoopResult(migrated, methods, plugin, run, now, v);
      if v == plugin {
        VersionLeqTotal(plugin, plugin);
        assert !VersionGreater(v, plugin);
      }
    }
  }

  /** Pruning, stamping and sorting leave what the loop recorded for a
      migration's version untouched; the stamp only fills in the plugin's
      version when the loop left it unset. */
  lemma MigrateKeepsLoopResult(migrated: Arr<int>, methods: seq<string>, plugin: string, run: string -> Outcome, now: nat, v: string)
    requires Distinct(migrated)
    ensures var looped := RunAll(migrated, MigrationMethods(methods), plugin, run, now).0;
      v in VersionSet(MigrationMethods(methods)) ==>
        Find(Migrate(migrated, methods, plugin, run, now).0, v) ==
          if v == plugin && Find(looped, v).None? then Some(now) else Find(looped, v)
  {
    var ms := MigrationMethods(methods);
    var vs := VersionSet(ms);
    if v in vs {
      var looped := RunAll(migrated, ms, plugin, run, now).0;
      var pruned := Restrict(looped, vs);
      assert Distinct(looped);
      assert Distinct(pruned) && Find(pruned, v) == Find(looped, v);
      var stamped := if Find(pruned, plugin).Some? then pruned else Put(pruned, plugin, now);
      assert Distinct(stamped);
      assert Find(stamped, v) == if v == plugin && Find(looped, v).None? then Some(now) else Find(looped, v);
    }
  }

  /** The pruning runs before the plugin version is stamped, so the stamp
      survives only when the plugin version is itself a migration version: a
      stamp recorded on an earlier run is replaced by `now` on every run.
      Here the only migration stands for 0.1.2, as `migrate_0_1_2` does
      (`ShippedMigrationName`), and the plugin is at 0.1.0. */
  lemma MigrateResetsPluginStamp(before: Arr<int>, m: string, plugin: string, run: string -> Outcome, now: nat)
    requires ContainsText(m, "migrate_") && UpgradeVersionOf(m) == "0.1.2"
    requires before == [("0.1.2", 100), ("0.1.0", 50)]
    requires plugin == "0.1.0" && now == 200
    ensures Find(before, plugin) == Some(50)
    ensures Find(Migrate(before, [m], plugin, run, now).0, plugin) == Some(200)
  {
    OneMigration(m);
    assert plugin[4] != "0.1.2"[4];
    assert before[1..] == [("0.1.0", 50)];
    assert Find(before, plugin) == Some(50);
    assert Distinct(before) by {
      assert KeySet(before[1..]) == {"0.1.0"};
    }
  }

  /** The migration shipped with the plugin is a migration method and stands
      for version 0.1.2. */
  lemma ShippedMigrationName(name: string)
    requires name == "migrate_0_1_2"
    ensures ContainsText(name, "migrate_")
    ensures UpgradeVersionOf(name) == "0.1.2"
  {
    ShippedMigrationVersion(name);
    ContainsOwnPrefix("migrate_", "0_1_2");
    assert name == "migrate_" + "0_1_2";
  }

  lemma ContainsOwnPrefix(p: string, s: string)
    ensures ContainsText(p + s, p)
  {
    assert (p + s)[..|p|] == p;
  }

  /** A list of one migration method. */
  lemma OneMigration(m: string)
    requires ContainsText(m, "migrate_")
    ensures MigrationMethods([m]) == [m]
    ensures VersionSet([m]) == {UpgradeVersionOf(m)}
  {
    assert [m][1..] == [];
  }

  /** A single migration newer than the plugin is not run and leaves the
      map alone. */
  lemma NewerMigrationWaits(migrated: Arr<int>, m: string, plugin: string, run: string -> Outcome, now: nat)
    requires VersionGreater(UpgradeVersionOf(m), plugin)
    ensures RunAll(migrated, [m], plugin, run, now) == (migrated, [])
  {
    assert Skips(migrated, UpgradeVersionOf(m), plugin);
    assert Step(migrated, m, plugin, run, now) == (migrated, false);
    var ms := [m];
    assert ms[0] == m && ms[1..] == [];
    var rest := RunAll(migrated, ms[1..], plugin, run, now);
    assert rest == (migrated, []);
    assert RunAll(migrated, ms, plugin, run, now) == (rest.0, [] + rest.1);
    assert RunAll(migrated, ms, plugin, run, now).0 == migrated;
    assert RunAll(migrated, ms, plugin, run, now).1 == [];
  }

  /** With the plugin at 0.1.0, the migration for 0.1.2 is newer than the
      plugin and is never run. */
  lemma ShippedMigrationWaits(migrated: Arr<int>, m: string, plugin: string, run: string -> Outcome, now: nat)
    requires ContainsText(m, "migrate_") && UpgradeVersionOf(m) == "0.1.2"
    requires plugin == "0.1.0"
    ensures Migrate(migrated, [m], plugin, run, now).1 == []
  {
    OneMigration(m);
    ShippedMigrationIsAhead();
    NewerMigrationWaits(migrated, m, plugin, run, now);
  }

  /** `migrate` with the pruning keeping the plugin version's entry, so that
      the stamp of the plugin version is written once and kept afterwards. */
  function MigrateKeepingStamp(migrated: Arr<int>, methods: seq<string>, plugin: string, run: string -> Outcome, now: nat): (r: (Arr<int>, seq<string>))
    ensures var vs := VersionSet(MigrationMethods(methods));
      && plugin in KeySet(r.0)
      && KeySet(r.0) <= vs + {plugin}
      && KeySet(migrated) * vs <= KeySet(r.0)
      && SortedByVersion(r.0)
      && (Distinct(migrated) ==> Distinct(r.0))
      && (Distinct(migrated) ==> forall k :: k in vs && k != plugin && Done(migrated, k) ==> Find(r.0, k) == Find(migrated, k))
      && (Distinct(migrated) && plugin !in vs ==> Find(r.0, plugin) == Some(Find(migrated, plugin).GetOr(now)))
    ensures forall m :: m in r.1 ==> m in methods && ContainsText(m, "migrate_")
  {
    var ms := MigrationMethods(methods);
    var vs := VersionSet(ms);
    var (looped, ran) := RunAll(migrated, ms, plugin, run, now);
    var pruned := Restrict(looped, vs + {plugin});
    var stamped := if Find(pruned, plugin).Some? then pruned else Put(pruned, plugin, now);
    (SortByVersion(stamped), ran)
  }

  /** With the stamp kept, running the bookkeeping again at a later time
      leaves the plugin version's stamp as the first run wrote it. */
  lemma StampIsStable(migrated: Arr<int>, methods: seq<string>, plugin: string, run: string -> Outcome, now: nat, later: nat)
    requires Distinct(migrated)
    requires plugin !in VersionSet(MigrationMethods(methods))
    ensures var first := MigrateKeepingStamp(migrated, methods, plugin, run, now).0;
      Find(MigrateKeepingStamp(first, methods, plugin, run, later).0, plugin) == Find(first, plugin)
  {
  }
}

=== FILE: php_array.dfy ===
/** PHP arrays with string keys, modelled as their entries in iteration order.
    A PHP array never holds the same key twice; `Distinct` states that
    representation invariant where a property depends on it. */
module PhpArray {
  import opened Wrappers

  type Arr<V> = seq<(string, V)>

  /** The keys of `a`, in iteration order. */
  function Keys<V>(a: Arr<V>): (ks: seq<string>)
    ensures |ks| == |a|
    ensures forall i :: 0 <= i < |a| ==> ks[i] == a[i].0
  {
    if |a| == 0 then [] else [a[0].0] + Keys(a[1..])
  }

  /** The values of `a`, in iteration order (what `foreach` visits). */
  function Values<V>(a: Arr<V>): (vs: seq<V>)
    ensures |vs| == |a|
    ensures forall i :: 0 <= i < |a| ==> vs[i] == a[i].1
  {
    if |a| == 0 then [] else [a[0].1] + Values(a[1..])
  }

  function KeySet<V>(a: Arr<V>): set<string>
  {
    if |a| == 0 then {} else {a[0].0} + KeySet(a[1..])
  }

  /** No key occurs twice. */
  predicate Distinct<V>(a: Arr<V>)
  {
    |a| == 0 || (a[0].0 !in KeySet(a[1..]) && Distinct(a[1..]))
  }

  /** `$a[$k]` when `array_key_exists($k, $a)`, else nothing. */
  function Find<V>(a: Arr<V>, k: string): (r: Option<V>)
    ensures r.Some? <==> k in KeySet(a)
    ensures r.Some? ==> (k, r.value) in a
  {
    if |a| == 0 then None
    else if a[0].0 == k then Some(a[0].1)
    else Find(a[1..], k)
  }

  /** `$a[$k] = $v`: an existing key keeps its position, a new key goes last. */
  function Put<V>(a: Arr<V>, k: string, v: V): (r: Arr<V>)
    ensures Find(r, k) == Some(v)
    ensures forall j :: j != k ==> Find(r, j) == Find(a, j)
    ensures KeySet(r) == KeySet(a) + {k}
    ensures Distinct(a) ==> Distinct(r)
    ensures k in KeySet(a) ==> Keys(r) == Keys(a)
    ensures k !in KeySet(a) ==> r == a + [(k, v)]
  {
    if |a| == 0 then [(k, v)]
    else if a[0].0 == k then [(k, v)] + a[1..]
    else [a[0]] + Put(a[1..], k, v)
  }

  /** `array_intersect_key($a, array_flip($ks))`: keep the entries whose key
      is in `ks`, in their original order. */
  function Restrict<V>(a: Arr<V>, ks: set<string>): (r: Arr<V>)
    ensures forall j :: Find(r, j) == if j in ks then Find(a, j) else None
    ensures KeySet(r) == KeySet(a) * ks
    ensures Distinct(a) ==> Distinct(r)
    ensures |r| <= |a|
  {
    if |a| == 0 then []
    else if a[0].0 in ks then [a[0]] + Restrict(a[1..], ks)
    else Restrict(a[1..], ks)
  }

  /** `array_merge($d, $a)` for string keys: the keys of `d` first, in their
      order, then the keys only `a` has; on a shared key the value of `a` wins. */
  function Merge<V>(d: Arr<V>, a: Arr<V>): (r: Arr<V>)
    ensures Distinct(a) ==> forall j :: Find(r, j) == if j in KeySet(a) then Find(a, j) else Find(d, j)
    ensures KeySet(r) == KeySet(d) + KeySet(a)
    ensures |d| <= |r| && forall i :: 0 <= i < |d| ==> r[i].0 == d[i].0
    ensures Distinct(d) ==> Distinct(r)
    decreases |a|
  {
    if |a| == 0 then d
    else
      var d' := Put(d, a[0].0, a[0].1);
      assert forall i :: 0 <= i < |d| ==> d'[i].0 == Keys(d')[i] == Keys(d)[i];
      Merge(d', a[1..])
  }
}

=== FILE: php_value.dfy ===
/** The PHP values the settings code stores and compares: scalars and
    string-keyed arrays (floats and objects are not modelled). */
module PhpValue {
  import opened PhpArray

  datatype Value = Null | Bool(b: bool) | Int(i: int) | Str(s: string) | Array(entries: Arr<Value>)

  /** Reading `$v[$k]`: the entry's value, or `null` when the key is missing
      or `v` is not an array. */
  function Index(v: Value, k: string): (r: Value)
    ensures v.Array? && k in KeySet(v.entries) ==> (k, r) in v.entries
    ensures !v.Array? || k !in KeySet(v.entries) ==> r == Null
  {
    match v
    case Array(es) => (match Find(es, k) case Some(x) => x case None => Null)
    case _ => Null
  }

  /** `isset($v[$k])`: the key is present with a non-null value. */
  predicate IsSet(v: Value, k: string)
  {
    Index(v, k) != Null
  }

  /** PHP's conversion to boolean (`if ($v)`, and `! empty($v)`). */
  predicate Truthy(v: Value)
  {
    match v
    case Null => false
    case Bool(b) => b
    case Int(i) => i != 0
    case Str(s) => s != "" && s != "0"
    case Array(es) => |es| > 0
  }

  /** `empty($s)` for a string: the empty string and "0" are empty. */
  predicate EmptyString(s: string)
    ensures EmptyString(s) <==> !Truthy(Str(s))
  {
    s == "" || s == "0"
  }

  function DigitChar(d: nat): (c: char)
    requires d < 10
    ensures '0' <= c <= '9'
  {
    "0123456789"[d]
  }

  /** The decimal spelling of `n`, without leading zeros. */
  function NatToString(n: nat): (s: string)
    ensures |s| > 0
    ensures forall i :: 0 <= i < |s| ==> '0' <= s[i] <= '9'
    ensures s[0] == '0' ==> n == 0
  {
    if n < 10 then [DigitChar(n)] else NatToString(n / 10) + [DigitChar(n % 10)]
  }

  /** `(string) $i` for an integer. */
  function IntToString(i: int): (s: string)
    ensures |s| > 0
    ensures i < 0 <==> s[0] == '-'
  {
    if i < 0 then "-" + NatToString(-i) else NatToString(i)
  }

  /** `(string) $v`: what string concatenation, `sprintf('%s')` and
      `esc_attr` see. An array reads as "Array". */
  function ToPhpString(v: Value): (s: string)
    ensures v.Str? ==> s == v.s
    ensures v.Null? || v == Bool(false) ==> s == ""
  {
    match v
    case Null => ""
    case Bool(b) => if b then "1" else ""
    case Int(i) => IntToString(i)
    case Str(s) => s
    case Array(_) => "Array"
  }

  /** PHP 8's loose comparison `$v == $s` against a string, for the
      non-numeric strings that name settings fields. */
  predicate LooseEqualsString(v: Value, s: string)
  {
    match v
    case Null => s == ""
    case Bool(b) => b == Truthy(Str(s))
    case Int(i) => IntToString(i) == s
    case Str(t) => t == s
    case Array(_) => false
  }
}

=== FILE: providers.dfy ===
/** The IndexNow providers: five classes that differ only in their slug,
    display name, endpoint and the user-agent of their search engine's bot.
    Display names go through the `recrawler` translation domain; the model
    keeps the untranslated text. */
module Providers {
  import opened Wrappers

  datatype Provider = IndexNow | Bing | Yandex | Seznam | Naver

  const AllProviders: seq<Provider> := [IndexNow, Yandex, Bing, Seznam, Naver]

  /** The values the log table's `search_engine` column accepts. */
  const LogSearchEngines: set<string> := {
    "index-now", "yandex-index-now", "yandex-webmaster", "bing-index-now", "bing-webmaster",
    "site", "google-webmaster", "seznam-index-now", "naver-index-now"
  }

  const BingbotAgent: string := "Mozilla/5.0 (compatible; bingbot/2.0; +http://www.bing.com/bingbot.htm)"
  const YandexBotAgent: string := "Mozilla/5.0 (compatible; YandexBot/3.0; +http://yandex.com/bots)"
  const SeznamBotAgent: string := "Mozilla/5.0 (compatible; SeznamBot/3.2; +http://napoveda.seznam.cz/en/seznambot-intro/)"

  /** Naver's crawler, Yeti, announcing itself as a desktop browser. */
  const YetiAgent: string := "Mozilla/5.0 (Windows NT 10.0; Win64; x64) AppleWebKit/537.36 (KHTML, like Gecko; compatible; Yeti/1.1; https://naver.me/spd) Chrome/112.0.0.0 Safari/537.36"

  /** `get_slug`; every slug can be written to the log table. */
  function Slug(p: Provider): (s: string)
    ensures s in LogSearchEngines
    ensures |s| >= 9 && s[|s| - 9..] == "index-now"
  {
    match p
    case IndexNow => "index-now"
    case Bing => "bing-index-now"
    case Yandex => "yandex-index-now"
    case Seznam => "seznam-index-now"
    case Naver => "naver-index-now"
  }

  /** `get_name`. Naver's class reports Seznam's name. */
  function Name(p: Provider): (n: string)
    ensures |n| >= 8 && n[|n| - 8..] == "IndexNow"
  {
    match p
    case IndexNow => "IndexNow"
    case Bing => "Bing IndexNow"
    case Yandex => "Yandex IndexNow"
    case Seznam => "Seznam IndexNow"
    case Naver => "Seznam IndexNow"
  }

  /** The host each provider's IndexNow endpoint lives on. */
  function Host(p: Provider): string
  {
    match p
    case IndexNow => "api.indexnow.org"
    case Bing => "www.bing.com"
    case Yandex => "yandex.com"
    case Seznam => "search.seznam.cz"
    case Naver => "searchadvisor.naver.com"
  }

  /** `get_api_url`: every endpoint is an https URL on the provider's host
      whose path is "/indexnow", as the IndexNow protocol prescribes. */
  function ApiUrl(p: Provider): string
  {
    "https://" + Host(p) + "/indexnow"
  }

  /** Reading an endpoint back: the scheme, then the host, then the path. */
  lemma ApiUrlShape(p: Provider)
    ensures |ApiUrl(p)| == 8 + |Host(p)| + 9
    ensures ApiUrl(p)[..8] == "https://" && ApiUrl(p)[8..|ApiUrl(p)| - 9] == Host(p) && ApiUrl(p)[|ApiUrl(p)| - 9..] == "/indexnow"
  {
  }

  /** `get_bot_useragent`: the generic provider borrows Yandex's bot. */
  function BotUserAgent(p: Provider): (a: string)
    ensures a == YandexBotAgent <==> p == IndexNow || p == Yandex
  {
    AgentsDiffer();
    match p
    case IndexNow => YandexBotAgent
    case Bing => BingbotAgent
    case Yandex => YandexBotAgent
    case Seznam => SeznamBotAgent
    case Naver => YetiAgent
  }

  /** The four user-agents are different strings. */
  lemma AgentsDiffer()
    ensures YandexBotAgent != BingbotAgent && YandexBotAgent != SeznamBotAgent && YandexBotAgent != YetiAgent
    ensures BingbotAgent != SeznamBotAgent && BingbotAgent != YetiAgent && SeznamBotAgent != YetiAgent
  {
    assert |YandexBotAgent| == 64 && |BingbotAgent| == 71 && |SeznamBotAgent| == 87 && |YetiAgent| == 155;
  }

  /** The provider a logged slug stands for. */
  function FromSlug(s: string): (r: Option<Provider>)
    ensures r.Some? ==> Slug(r.value) == s
  {
    if s == "index-now" then Some(IndexNow)
    else if s == "bing-index-now" then Some(Bing)
    else if s == "yandex-index-now" then Some(Yandex)
    else if s == "seznam-index-now" then Some(Seznam)
    else if s == "naver-index-now" then Some(Naver)
    else None
  }

  /** Slugs identify providers: the slug of a provider leads back to it,
      so no two providers share a slug. */
  lemma SlugRoundTrip(p: Provider)
    ensures FromSlug(Slug(p)) == Some(p)
  {
  }

  lemma SlugsDistinct(p: Provider, q: Provider)
    ensures Slug(p) == Slug(q) ==> p == q
  {
    SlugRoundTrip(p);
    SlugRoundTrip(q);
  }

  /** The generic provider announces itself with Yandex's bot user-agent. */
  lemma GenericUsesYandexAgent()
    ensures BotUserAgent(IndexNow) == BotUserAgent(Yandex)
    ensures ApiUrl(IndexNow) != ApiUrl(Yandex)
  {
  }

  /** Naver shows the same display name as Seznam, though the two are
      different providers with different endpoints. */
  lemma NaverNamedLikeSeznam()
    ensures Name(Naver) == Name(Seznam)
    ensures Slug(Naver) != Slug(Seznam) && ApiUrl(Naver) != ApiUrl(Seznam)
  {
  }

  /** Each provider's values, class by class. */
  lemma BingValues()
    ensures Slug(Bing) == "bing-index-now" && Name(Bing) == "Bing IndexNow"
    ensures Host(Bing) == "www.bing.com"
    ensures BotUserAgent(Bing) == BingbotAgent
  {
  }

  lemma IndexNowValues()
    ensures Slug(IndexNow) == "index-now" && Name(IndexNow) == "IndexNow"
    ensures Host(IndexNow) == "api.indexnow.org"
    ensures BotUserAgent(IndexNow) == YandexBotAgent
  {
  }

  lemma YandexValues()
    ensures Slug(Yandex) == "yandex-index-now" && Name(Yandex) == "Yandex IndexNow"
    ensures Host(Yandex) == "yandex.com"
    ensures BotUserAgent(Yandex) == YandexBotAgent
  {
  }

  lemma SeznamValues()
    ensures Slug(Seznam) == "seznam-index-now" && Name(Seznam) == "Seznam IndexNow"
    ensures Host(Seznam) == "search.seznam.cz"
    ensures BotUserAgent(Seznam) == SeznamBotAgent
  {
  }

  lemma NaverValues()
    ensures Slug(Naver) == "naver-index-now" && Name(Naver) == "Seznam IndexNow"
    ensures Host(Naver) == "searchadvisor.naver.com"
    ensures BotUserAgent(Naver) == YetiAgent
  {
  }

  /** Each provider's endpoint, as its class spells it. */
  lemma BingEndpoint()
    ensures ApiUrl(Bing) == "https://www.bing.com/indexnow"
  {
    assert Host(Bing) == "www.bing.com";
  }

  lemma IndexNowEndpoint()
    ensures ApiUrl(IndexNow) == "https://api.indexnow.org/indexnow"
  {
    assert Host(IndexNow) == "api.indexnow.org";
  }

  lemma YandexEndpoint()
    ensures ApiUrl(Yandex) == "https://yandex.com/indexnow"
  {
    assert Host(Yandex) == "yandex.com";
  }

  lemma SeznamEndpoint()
    ensures ApiUrl(Seznam) == "https://search.seznam.cz/indexnow"
  {
    assert Host(Seznam) == "search.seznam.cz";
  }

  lemma NaverEndpoint()
    ensures ApiUrl(Naver) == "https://searchadvisor.naver.com/indexnow"
  {
    assert Host(Naver) == "searchadvisor.naver.com";
  }

  /** Every provider is listed once. */
  lemma AllProvidersListed(p: Provider)
    ensures p in AllProviders
  {
  }
}

=== FILE: upgrade_version.dfy ===
/** Version strings of the migration bookkeeping: the version a migration
    method's name stands for (`get_upgrade_version`) and the comparison of
    dotted numeric versions that `version_compare` performs on them. */
module UpgradeVersion {
  import opened Wrappers

  predicate IsDigit(c: char)
  {
    '0' <= c <= '9'
  }

  /** The position of the leftmost digit of `s`. */
  function FirstDigit(s: string): (r: Option<nat>)
    ensures r.Some? ==> r.value < |s| && IsDigit(s[r.value])
    ensures r.Some? ==> forall j :: 0 <= j < r.value ==> !IsDigit(s[j])
    ensures r.None? ==> forall j :: 0 <= j < |s| ==> !IsDigit(s[j])
  {
    if |s| == 0 then None
    else if IsDigit(s[0]) then Some(0)
    else match FirstDigit(s[1..])
      case Some(i) => Some(i + 1)
      case None => None
  }

  /** The length of the greedy match of `(\d_?)+` at position `i`: each digit
      takes one following underscore with it when there is one. */
  function RunLength(s: string, i: nat): (n: nat)
    requires i <= |s|
    ensures i + n <= |s|
    ensures n > 0 <==> i < |s| && IsDigit(s[i])
    decreases |s| - i
  {
    if i < |s| && IsDigit(s[i]) then
      if i + 1 < |s| && s[i + 1] == '_' then 2 + RunLength(s, i + 2) else 1 + RunLength(s, i + 1)
    else 0
  }

  /** The run ends where the next character cannot extend it: it is not a
      digit, and it is not an underscore after a digit. */
  lemma {:induction false} RunLengthIsGreedy(s: string, i: nat)
    requires i < |s| && IsDigit(s[i])
    ensures var n := RunLength(s, i);
      i + n < |s| ==> !IsDigit(s[i + n]) && (IsDigit(s[i + n - 1]) ==> s[i + n] != '_')
    decreases |s| - i
  {
    if i + 1 < |s| && s[i + 1] == '_' {
      if i + 2 < |s| && IsDigit(s[i + 2]) {
        RunLengthIsGreedy(s, i + 2);
      }
    } else if i + 1 < |s| && IsDigit(s[i + 1]) {
      RunLengthIsGreedy(s, i + 1);
    }
  }

  /** A string `(\d_?)+` matches whole: digits, each followed by at most one
      underscore. */
  predicate IsRun(r: string)
  {
    && |r| > 0
    && IsDigit(r[0])
    && (forall j :: 0 <= j < |r| ==> IsDigit(r[j]) || r[j] == '_')
    && (forall j :: 0 < j < |r| && r[j] == '_' ==> IsDigit(r[j - 1]))
  }

  lemma RunChars(r: string)
    requires IsRun(r)
    ensures forall j :: 0 <= j < |r| ==> IsDigit(r[j]) || r[j] == '_'
  {
  }

  lemma {:induction false} RunLengthIsRun(s: string, i: nat)
    requires i < |s| && IsDigit(s[i])
    ensures IsRun(s[i..i + RunLength(s, i)])
    decreases |s| - i
  {
    var n := RunLength(s, i);
    var r := s[i..i + n];
    if i + 1 < |s| && s[i + 1] == '_' {
      if i + 2 < |s| && IsDigit(s[i + 2]) {
        RunLengthIsRun(s, i + 2);
        RunTail(s[i..i + n], s[i + 2..i + n], 2);
      }
    } else if i + 1 < |s| && IsDigit(s[i + 1]) {
      RunLengthIsRun(s, i + 1);
      RunTail(s[i..i + n], s[i + 1..i + n], 1);
    }
  }

  /** Past its first `k` characters, `r` reads as its tail `t`. */
  lemma RunTail(r: string, t: string, k: nat)
    requires k <= |r| && t == r[k..]
    ensures forall j :: k <= j < |r| ==> r[j] == t[j - k]
  {
  }

  /** The text the regular expression `(\d_?)+` matches first in `s`, or
      nothing when `s` has no digit. */
  function RawVersion(s: string): (r: Option<string>)
    ensures r.None? <==> forall j :: 0 <= j < |s| ==> !IsDigit(s[j])
    ensures r.Some? ==> IsRun(r.value)
  {
    match FirstDigit(s)
    case None => None
    case Some(i) =>
      RunLengthIsRun(s, i);
      Some(s[i..i + RunLength(s, i)])
  }

  /** The match is the leftmost and longest one: it is the slice of `s`
      starting at the first digit, and the character after it cannot extend
      it (neither a digit, nor an underscore following a digit). */
  lemma RawVersionIsLeftmostGreedy(s: string)
    requires RawVersion(s).Some?
    ensures FirstDigit(s).Some?
    ensures var i, r := FirstDigit(s).value, RawVersion(s).value;
      && i + |r| <= |s|
      && r == s[i..i + |r|]
      && (i + |r| < |s| ==> !IsDigit(s[i + |r|]) && (IsDigit(s[i + |r| - 1]) ==> s[i + |r|] != '_'))
  {
    RunLengthIsGreedy(s, FirstDigit(s).value);
  }

  /** `str_replace($a, $b, $s)` for single characters. */
  function ReplaceChar(s: string, a: char, b: char): (r: string)
    ensures |r| == |s|
    ensures forall j :: 0 <= j < |s| ==> r[j] == if s[j] == a then b else s[j]
  {
    if |s| == 0 then [] else [if s[0] == a then b else s[0]] + ReplaceChar(s[1..], a, b)
  }

  /** `implode('.', str_split($s))`: the characters of `s` separated by dots. */
  function DotSeparated(s: string): (r: string)
    ensures |s| > 0 ==> |r| == 2 * |s| - 1
    ensures |s| == 0 ==> r == ""
    decreases |s|
  {
    if |s| <= 1 then s else [s[0], '.'] + DotSeparated(s[1..])
  }

  /** `$s` with every dot removed. */
  function WithoutDots(s: string): (r: string)
    ensures '.' !in r
  {
    if |s| == 0 then [] else (if s[0] == '.' then [] else [s[0]]) + WithoutDots(s[1..])
  }

  /** `get_upgrade_version`: the first run of `(\d_?)+` in the method name.
      A run with an underscore is the modern notation, its underscores read
      as dots ("0_1_2" is "0.1.2"); a run of bare digits is the legacy
      notation, one digit per part ("360" is "3.6.0"). No digit gives "". */
  function UpgradeVersionOf(name: string): (v: string)
    ensures (forall j :: 0 <= j < |name| ==> !IsDigit(name[j])) <==> v == ""
  {
    match RawVersion(name)
    case None => ""
    case Some(raw) => if '_' in raw then ReplaceChar(raw, '_', '.') else DotSeparated(raw)
  }

  lemma {:induction false} DotSeparatedRoundTrip(s: string)
    requires '.' !in s
    ensures WithoutDots(DotSeparated(s)) == s
    decreases |s|
  {
    if |s| == 1 {
      assert WithoutDots(s[1..]) == [];
    } else if |s| > 1 {
      var t := [s[0], '.'] + DotSeparated(s[1..]);
      assert t[1..][1..] == DotSeparated(s[1..]);
      assert s[0] != '.';
      DotSeparatedRoundTrip(s[1..]);
    }
  }

  /** Where the characters and the dots of `DotSeparated(s)` sit. */
  lemma {:induction false} DotSeparatedLayout(s: string)
    ensures forall j :: 0 <= j < |s| ==> DotSeparated(s)[2 * j] == s[j]
    ensures forall j :: 0 <= j < |s| - 1 ==> DotSeparated(s)[2 * j + 1] == '.'
    decreases |s|
  {
    if |s| > 1 {
      DotSeparatedLayout(s[1..]);
      var t := DotSeparated(s[1..]);
      var r := [s[0], '.'] + t;
      forall j | 1 <= j < |s| ensures r[2 * j] == s[j] {
        assert r[2 * j] == t[2 * (j - 1)];
      }
      forall j | 1 <= j < |s| - 1 ensures r[2 * j + 1] == '.' {
        assert r[2 * j + 1] == t[2 * (j - 1) + 1];
      }
    }
  }

  /** The legacy notation: for a run of n digits the version is 2n-1
      characters long, alternates digit and dot, and dropping the dots gives
      back the digits. */
  lemma LegacyVersionShape(name: string)
    requires RawVersion(name).Some? && '_' !in RawVersion(name).value
    ensures var raw := RawVersion(name).value;
      && |UpgradeVersionOf(name)| == 2 * |raw| - 1
      && WithoutDots(UpgradeVersionOf(name)) == raw
      && (forall j :: 0 <= j < |raw| ==> UpgradeVersionOf(name)[2 * j] == raw[j])
      && (forall j :: 0 <= j < |raw| - 1 ==> UpgradeVersionOf(name)[2 * j + 1] == '.')
  {
    var raw := RawVersion(name).value;
    RunChars(raw);
    assert '.' !in raw by {
      forall j | 0 <= j < |raw| ensures raw[j] != '.' {
        assert IsDigit(raw[j]) || raw[j] == '_';
      }
    }
    assert UpgradeVersionOf(name) == DotSeparated(raw);
    DotSeparatedRoundTrip(raw);
    DotSeparatedLayout(raw);
  }

  /** The modern notation: the version has the run's length and turning its
      dots back into underscores gives back the run. */
  lemma ModernVersionRoundTrip(name: string)
    requires RawVersion(name).Some? && '_' in RawVersion(name).value
    ensures |UpgradeVersionOf(name)| == |RawVersion(name).value|
    ensures ReplaceChar(UpgradeVersionOf(name), '.', '_') == RawVersion(name).value
    ensures '_' !in UpgradeVersionOf(name)
  {
    var raw := RawVersion(name).value;
    var v := UpgradeVersionOf(name);
    assert IsRun(raw);
    assert forall j :: 0 <= j < |raw| ==> raw[j] != '.';
    assert forall j :: 0 <= j < |v| ==> v[j] != '_';
  }

  lemma {:induction false} FirstDigitAfterPrefix(p: string, s: string)
    requires forall j :: 0 <= j < |p| ==> !IsDigit(p[j])
    ensures FirstDigit(p + s) == match FirstDigit(s) case Some(i) => Some(|p| + i) case None => None
    decreases |p|
  {
    if |p| == 0 {
      assert p + s == s;
    } else {
      assert (p + s)[1..] == p[1..] + s;
      FirstDigitAfterPrefix(p[1..], s);
    }
  }

  lemma {:induction false} RunLengthShift(p: string, s: string, i: nat)
    requires i <= |s|
    ensures RunLength(p + s, |p| + i) == RunLength(s, i)
    decreases |s| - i
  {
    var t := p + s;
    if i < |s| {
      assert t[|p| + i] == s[i];
      if i + 1 < |s| {
        assert t[|p| + i + 1] == s[i + 1];
      }
      if i + 1 < |s| && s[i + 1] == '_' {
        RunLengthShift(p, s, i + 2);
      } else {
        RunLengthShift(p, s, i + 1);
      }
    }
  }

  lemma RawVersionAfterPrefix(p: string, s: string)
    requires forall j :: 0 <= j < |p| ==> !IsDigit(p[j])
    ensures RawVersion(p + s) == RawVersion(s)
  {
    FirstDigitAfterPrefix(p, s);
    if FirstDigit(s).Some? {
      var i := FirstDigit(s).value;
      RunLengthShift(p, s, i);
      var n := RunLength(s, i);
      assert (p + s)[|p| + i..|p| + i + n] == s[i..i + n];
    }
  }

  /** A prefix without digits does not change the version a name stands for. */
  lemma UpgradeVersionAfterPrefix(p: string, s: string)
    requires forall j :: 0 <= j < |p| ==> !IsDigit(p[j])
    ensures UpgradeVersionOf(p + s) == UpgradeVersionOf(s)
  {
    RawVersionAfterPrefix(p, s);
  }

  /** A run of three digits separated by underscores, the modern
      notation's usual shape. */
  lemma {:induction false} RunOfThree(x: char, y: char, z: char)
    requires IsDigit(x) && IsDigit(y) && IsDigit(z)
    ensures RawVersion([x, '_', y, '_', z]) == Some([x, '_', y, '_', z])
  {
    var r := [x, '_', y, '_', z];
    assert FirstDigit(r) == Some(0);
    assert RunLength(r, 4) == 1;
    assert RunLength(r, 2) == 3;
    assert RunLength(r, 0) == 5;
    assert r[0..5] == r;
  }

  /** A name whose first digits are `x_y_z` stands for version x.y.z. */
  lemma ModernThree(p: string, x: char, y: char, z: char)
    requires forall j :: 0 <= j < |p| ==> !IsDigit(p[j])
    requires IsDigit(x) && IsDigit(y) && IsDigit(z)
    ensures UpgradeVersionOf(p + [x, '_', y, '_', z]) == [x, '.', y, '.', z]
  {
    var r := [x, '_', y, '_', z];
    UpgradeVersionAfterPrefix(p, r);
    RunOfThree(x, y, z);
    assert r[1] == '_';
    UnderscoresToDots(x, y, z);
  }

  lemma UnderscoresToDots(x: char, y: char, z: char)
    requires IsDigit(x) && IsDigit(y) && IsDigit(z)
    ensures ReplaceChar([x, '_', y, '_', z], '_', '.') == [x, '.', y, '.', z]
  {
    var r := ReplaceChar([x, '_', y, '_', z], '_', '.');
    assert r[0] == x && r[1] == '.' && r[2] == y && r[3] == '.' && r[4] == z;
  }

  /** A run of three bare digits, the legacy notation. */
  lemma {:induction false} RunOfThreeLegacy(x: char, y: char, z: char)
    requires IsDigit(x) && IsDigit(y) && IsDigit(z)
    ensures RawVersion([x, y, z]) == Some([x, y, z])
  {
    var r := [x, y, z];
    assert FirstDigit(r) == Some(0);
    assert RunLength(r, 2) == 1;
    assert RunLength(r, 1) == 2;
    assert RunLength(r, 0) == 3;
    assert r[0..3] == r;
  }

  /** A name whose first digits are `xyz` with no underscore between them
      stands for version x.y.z. */
  lemma LegacyThree(p: string, x: char, y: char, z: char)
    requires forall j :: 0 <= j < |p| ==> !IsDigit(p[j])
    requires IsDigit(x) && IsDigit(y) && IsDigit(z)
    ensures UpgradeVersionOf(p + [x, y, z]) == [x, '.', y, '.', z]
  {
    var r := [x, y, z];
    UpgradeVersionAfterPrefix(p, r);
    RunOfThreeLegacy(x, y, z);
    assert '_' !in r;
    assert r[1..] == [y, z] && r[1..][1..] == [z];
    assert DotSeparated([z]) == [z];
    assert DotSeparated([y, z]) == [y, '.', z];
  }

  /** "migrate_" holds no digit. */
  lemma MigratePrefixHasNoDigit()
    ensures var p := "migrate_"; forall j :: 0 <= j < |p| ==> !IsDigit(p[j])
  {
  }

  /** The migration shipped with the plugin, `migrate_0_1_2`, stands for 0.1.2. */
  lemma ShippedMigrationVersion(name: string)
    requires name == "migrate_0_1_2"
    ensures UpgradeVersionOf(name) == "0.1.2"
  {
    MigratePrefixHasNoDigit();
    ModernThree("migrate_", '0', '1', '2');
    assert name == "migrate_" + ['0', '_', '1', '_', '2'];
  }

  /** A legacy name: "migrate_360" stands for 3.6.0. */
  lemma LegacyMigrationVersion(name: string)
    requires name == "migrate_360"
    ensures UpgradeVersionOf(name) == "3.6.0"
  {
    MigratePrefixHasNoDigit();
    LegacyThree("migrate_", '3', '6', '0');
    assert name == "migrate_" + ['3', '6', '0'];
  }

  // ---------------------------------------------------------------------
  // Comparing dotted numeric versions

  /** The position of the first dot in `s`. */
  function DotIndex(s: string): (r: Option<nat>)
    ensures r.Some? ==> r.value < |s| && s[r.value] == '.' && '.' !in s[..r.value]
    ensures r.None? ==> '.' !in s
  {
    if |s| == 0 then None
    else if s[0] == '.' then Some(0)
    else match DotIndex(s[1..])
      case Some(i) => (assert s[..i + 1] == [s[0]] + s[1..][..i]; Some(i + 1))
      case None => None
  }

  /** The non-empty dot-separated parts of `s`. */
  function Parts(s: string): (ps: seq<string>)
    ensures forall j :: 0 <= j < |ps| ==> |ps[j]| > 0 && '.' !in ps[j]
    decreases |s|
  {
    match DotIndex(s)
    case None => if s == "" then [] else [s]
    case Some(d) => (if d == 0 then [] else [s[..d]]) + Parts(s[d + 1..])
  }

  function DigitValue(c: char): nat
  {
    if IsDigit(c) then (c - '0') as nat else 0
  }

  /** The number a part spells in decimal. */
  function Decimal(p: string): nat
  {
    if |p| == 0 then 0 else Decimal(p[..|p| - 1]) * 10 + DigitValue(p[|p| - 1])
  }

  function DecimalParts(ps: seq<string>): (ns: seq<nat>)
    ensures |ns| == |ps|
  {
    if |ps| == 0 then [] else [Decimal(ps[0])] + DecimalParts(ps[1..])
  }

  /** A version as its sequence of numeric parts. */
  function Parse(v: string): seq<nat>
  {
    DecimalParts(Parts(v))
  }

  /** Lexicographic order on part sequences; a proper prefix is smaller
      ("1.0" is older than "1.0.0", as `version_compare` has it). */
  predicate LexLeq(a: seq<nat>, b: seq<nat>)
  {
    |a| == 0 || (|b| > 0 && (a[0] < b[0] || (a[0] == b[0] && LexLeq(a[1..], b[1..]))))
  }

  lemma {:induction false} LexLeqTotal(a: seq<nat>, b: seq<nat>)
    ensures LexLeq(a, b) || LexLeq(b, a)
  {
    if |a| > 0 && |b| > 0 && a[0] == b[0] {
      LexLeqTotal(a[1..], b[1..]);
    }
  }

  lemma {:induction false} LexLeqTransitive(a: seq<nat>, b: seq<nat>, c: seq<nat>)
    requires LexLeq(a, b) && LexLeq(b, c)
    ensures LexLeq(a, c)
  {
    if |a| > 0 && a[0] == b[0] && b[0] == c[0] {
      LexLeqTransitive(a[1..], b[1..], c[1..]);
    }
  }

  lemma {:induction false} LexLeqAntisymmetric(a: seq<nat>, b: seq<nat>)
    requires LexLeq(a, b) && LexLeq(b, a)
    ensures a == b
  {
    if |a| > 0 {
      LexLeqAntisymmetric(a[1..], b[1..]);
      assert a == [a[0]] + a[1..] && b == [b[0]] + b[1..];
    }
  }

  /** `version_compare($a, $b, '<=')` for dotted numeric versions. */
  predicate VersionLeq(a: string, b: string)
  {
    LexLeq(Parse(a), Parse(b))
  }

  /** `version_compare($a, $b, '>')`. */
  predicate VersionGreater(a: string, b: string)
  {
    !VersionLeq(a, b)
  }

  /** `version_compare(..., '>')` is the strict order belonging to `<=`:
      greater means at least and not equal in parts. */
  lemma VersionGreaterIsStrict(a: string, b: string)
    ensures VersionGreater(a, b) <==> VersionLeq(b, a) && Parse(a) != Parse(b)
    ensures !VersionGreater(a, a)
  {
    LexLeqTotal(Parse(a), Parse(b));
    LexLeqTotal(Parse(a), Parse(a));
    if VersionLeq(b, a) && VersionLeq(a, b) {
      LexLeqAntisymmetric(Parse(a), Parse(b));
    }
  }

  lemma VersionLeqTotal(a: string, b: string)
    ensures VersionLeq(a, b) || VersionLeq(b, a)
  {
    LexLeqTotal(Parse(a), Parse(b));
  }

  lemma VersionLeqTransitive(a: string, b: string, c: string)
    requires VersionLeq(a, b) && VersionLeq(b, c)
    ensures VersionLeq(a, c)
  {
    LexLeqTransitive(Parse(a), Parse(b), Parse(c));
  }

  /** A leading part without dots, then a dot, then the rest. */
  lemma PartsCons(a: string, rest: string)
    requires |a| > 0 && '.' !in a
    ensures Parts(a + "." + rest) == [a] + Parts(rest)
  {
    var s := a + ("." + rest);
    assert a + "." + rest == s;
    DotIndexAfter(a, "." + rest);
    assert DotIndex("." + rest) == Some(0);
    assert DotIndex(s) == Some(|a|);
    assert s[..|a|] == a;
    assert s[|a| + 1..] == rest;
  }

  lemma {:induction false} DotIndexAfter(a: string, b: string)
    requires '.' !in a
    ensures DotIndex(a + b) == match DotIndex(b) case Some(i) => Some(|a| + i) case None => None
    decreases |a|
  {
    if |a| == 0 {
      assert a + b == b;
    } else {
      assert (a + b)[0] == a[0];
      assert (a + b)[1..] == a[1..] + b;
      DotIndexAfter(a[1..], b);
    }
  }

  /** A single digit reads as its value. */
  lemma DecimalDigit(c: char)
    requires IsDigit(c)
    ensures Decimal([c]) == (c - '0') as nat
  {
    assert [c][..0] == [];
  }

  /** Three one-digit parts split at their dots. */
  lemma PartsOfThree(x: char, y: char, z: char)
    requires x != '.' && y != '.' && z != '.'
    ensures Parts([x, '.', y, '.', z]) == [[x], [y], [z]]
  {
    assert [x, '.', y, '.', z] == [x] + "." + ([y] + "." + [z]);
    PartsCons([x], [y] + "." + [z]);
    PartsCons([y], [z]);
    assert DotIndex([z]) == None;
  }

  /** Three one-digit parts read as their digits' values. */
  lemma DecimalOfThree(x: char, y: char, z: char)
    requires IsDigit(x) && IsDigit(y) && IsDigit(z)
    ensures DecimalParts([[x], [y], [z]]) == [(x - '0') as nat, (y - '0') as nat, (z - '0') as nat]
  {
    DecimalDigit(x);
    DecimalDigit(y);
    DecimalDigit(z);
    var ps := [[x], [y], [z]];
    assert ps[1..] == [[y], [z]] && ps[1..][1..] == [[z]] && ps[1..][1..][1..] == [];
    assert DecimalParts([[z]]) == [Decimal([z])];
    assert DecimalParts([[y], [z]]) == [Decimal([y]), Decimal([z])];
  }

  /** A version x.y.z of one-digit parts. */
  lemma ParseThreeDigits(x: char, y: char, z: char)
    requires IsDigit(x) && IsDigit(y) && IsDigit(z)
    ensures Parse([x, '.', y, '.', z]) == [(x - '0') as nat, (y - '0') as nat, (z - '0') as nat]
  {
    PartsOfThree(x, y, z);
    DecimalOfThree(x, y, z);
  }

  lemma ParseOf012()
    ensures Parse("0.1.2") == [0, 1, 2]
  {
    ParseThreeDigits('0', '1', '2');
  }

  lemma ParseOf010()
    ensures Parse("0.1.0") == [0, 1, 0]
  {
    ParseThreeDigits('0', '1', '0');
  }

  /** The shipped migration 0.1.2 is newer than the plugin's version 0.1.0,
      so `migrate` does not run it yet. */
  lemma ShippedMigrationIsAhead()
    ensures VersionGreater("0.1.2", "0.1.0")
  {
    ParseOf012();
    ParseOf010();
    var a: seq<nat> := [0, 1, 2];
    var b: seq<nat> := [0, 1, 0];
    assert a[1..][1..] == [2] && b[1..][1..] == [0];
  }
}

=== FILE: utils.dfy ===
/** The small helpers of `Utils`: the HTTP success band, key generation
    from a UUID, asset locations, and the stored database version. The
    plugin's URL and directory depend on the installation and are
    parameters; the UUID `wp_generate_uuid4` draws at random is an input. */
module Utils {
  import opened PhpValue
  import opened WpOptions

  /** `RECRAWLER_PREFIX`. */
  const PluginPrefix: string := "mihdan_index_now"

  /** The version `get_db_version` reports when none is stored. */
  const DefaultDbVersion: string := "1.0.0"

  // ---------------------------------------------------------------------
  // HTTP status codes

  /** `is_response_code_success`: a 2xx status code, that is, the status
      class 2 of HTTP: the codes whose hundreds digit is 2. */
  function IsResponseCodeSuccess(code: int): (ok: bool)
    ensures code >= 0 ==> (ok <==> code / 100 == 2)
    ensures code < 0 ==> !ok
  {
    code >= 200 && code < 300
  }

  // ---------------------------------------------------------------------
  // Keys

  /** `str_replace('-', '', $s)`. */
  function StripHyphens(s: string): (r: string)
    ensures '-' !in r
    ensures |r| <= |s|
    ensures forall c :: c in r <==> c in s && c != '-'
  {
    if |s| == 0 then ""
    else (if s[0] == '-' then "" else [s[0]]) + StripHyphens(s[1..])
  }

  /** The number of hyphens in `s`. */
  function Hyphens(s: string): nat
  {
    if |s| == 0 then 0 else (if s[0] == '-' then 1 else 0) + Hyphens(s[1..])
  }

  /** Exactly the hyphens are dropped. */
  lemma {:induction false} StripHyphensLength(s: string)
    ensures |StripHyphens(s)| == |s| - Hyphens(s)
  {
    if |s| > 0 {
      StripHyphensLength(s[1..]);
    }
  }

  /** Stripping works piecewise. */
  lemma {:induction false} StripHyphensConcat(a: string, b: string)
    ensures StripHyphens(a + b) == StripHyphens(a) + StripHyphens(b)
  {
    if |a| == 0 {
      assert a + b == b;
    } else {
      assert (a + b)[1..] == a[1..] + b;
      StripHyphensConcat(a[1..], b);
    }
  }

  /** A string without hyphens is kept as it is; in particular stripping
      is idempotent. */
  lemma {:induction false} StripHyphensIdentity(s: string)
    requires '-' !in s
    ensures StripHyphens(s) == s
  {
    if |s| > 0 {
      StripHyphensIdentity(s[1..]);
    }
  }

  /** `generate_key`: the UUID without its hyphens. */
  function GenerateKey(uuid: string): (k: string)
    ensures '-' !in k
    ensures forall c :: c != '-' ==> (c in k <==> c in uuid)
  {
    StripHyphens(uuid)
  }

  predicate IsHexDigit(c: char)
  {
    '0' <= c <= '9' || 'a' <= c <= 'f'
  }

  /** The textual form `wp_generate_uuid4` produces: 36 characters, hyphens
      at positions 8, 13, 18 and 23, lower-case hex digits elsewhere. */
  predicate CanonicalUuid(u: string)
  {
    && |u| == 36
    && (forall i :: 0 <= i < 36 ==> if UuidHyphenAt(i) then u[i] == '-' else IsHexDigit(u[i]))
  }

  predicate UuidHyphenAt(i: int)
  {
    i == 8 || i == 13 || i == 18 || i == 23
  }

  /** Stripping `x`, a hyphen, and a hyphen-free `y`. */
  lemma StripJoin(x: string, y: string)
    requires '-' !in y
    ensures StripHyphens(x + "-" + y) == StripHyphens(x) + y
  {
    var xh := x + "-";
    StripHyphensConcat(xh, y);
    StripHyphensConcat(x, "-");
    assert StripHyphens("-") == "" by {
      assert "-"[1..] == "";
    }
    StripHyphensIdentity(y);
    assert StripHyphens(xh) == StripHyphens(x);
  }

  /** Stripping a string made of hyphen-free segments joined by hyphens
      gives the segments run together. */
  lemma StripSegments(a: string, b: string, c: string, d: string, e: string)
    requires '-' !in a && '-' !in b && '-' !in c && '-' !in d && '-' !in e
    ensures StripHyphens(a + "-" + b + "-" + c + "-" + d + "-" + e) == a + b + c + d + e
  {
    StripHyphensIdentity(a);
    StripJoin(a, b);
    StripJoin(a + "-" + b, c);
    StripJoin(a + "-" + b + "-" + c, d);
    StripJoin(a + "-" + b + "-" + c + "-" + d, e);
  }

  /** Between two hyphen positions a canonical UUID holds hex digits only. */
  lemma UuidSegment(u: string, lo: nat, hi: nat)
    requires CanonicalUuid(u) && lo <= hi <= 36
    requires forall i :: lo <= i < hi ==> !UuidHyphenAt(i)
    ensures forall i :: 0 <= i < hi - lo ==> IsHexDigit(u[lo..hi][i])
    ensures '-' !in u[lo..hi]
  {
    forall i | 0 <= i < hi - lo ensures IsHexDigit(u[lo..hi][i]) {
      assert !UuidHyphenAt(lo + i);
      assert u[lo..hi][i] == u[lo + i];
    }
  }

  /** A generated key is 32 hex digits: the UUID's digits in order. */
  lemma KeyOfCanonicalUuid(u: string)
    requires CanonicalUuid(u)
    ensures GenerateKey(u) == u[..8] + u[9..13] + u[14..18] + u[19..23] + u[24..]
    ensures |GenerateKey(u)| == 32
    ensures forall i :: 0 <= i < 32 ==> IsHexDigit(GenerateKey(u)[i])
  {
    var a, b, c, d, e := u[0..8], u[9..13], u[14..18], u[19..23], u[24..36];
    UuidSegment(u, 0, 8);
    UuidSegment(u, 9, 13);
    UuidSegment(u, 14, 18);
    UuidSegment(u, 19, 23);
    UuidSegment(u, 24, 36);
    assert u == a + "-" + b + "-" + c + "-" + d + "-" + e;
    StripSegments(a, b, c, d, e);
    var k := a + b + c + d + e;
    assert |k| == 32;
    forall i | 0 <= i < 32 ensures IsHexDigit(k[i]) {
      if i < 8 { assert k[i] == a[i]; }
      else if i < 12 { assert k[i] == b[i - 8]; }
      else if i < 16 { assert k[i] == c[i - 12]; }
      else if i < 20 { assert k[i] == d[i - 16]; }
      else { assert k[i] == e[i - 20]; }
    }
    assert u[..8] == a && u[24..] == e;
  }

  // ---------------------------------------------------------------------
  // Asset locations

  /** `get_plugin_asset_url`: the plugin URL, then "assets/", then the
      asset, with no separator added after the URL. */
  function AssetUrl(pluginUrl: string, asset: string): (r: string)
    ensures |r| == |pluginUrl| + 7 + |asset|
    ensures r[..|pluginUrl|] == pluginUrl && r[|pluginUrl| + 7..] == asset
    ensures r[|pluginUrl|..|pluginUrl| + 7] == "assets/"
  {
    pluginUrl + "assets/" + asset
  }

  /** `get_plugin_asset_path`: the plugin directory, then "/assets/", then
      the asset. */
  function AssetPath(pluginDir: string, asset: string): (r: string)
    ensures |r| == |pluginDir| + 8 + |asset|
    ensures r[..|pluginDir|] == pluginDir && r[|pluginDir| + 8..] == asset
    ensures r[|pluginDir|..|pluginDir| + 8] == "/assets/"
  {
    pluginDir + "/assets/" + asset
  }

  /** The path is built like the URL, with the separator the URL relies on
      its base to carry. */
  lemma AssetPathIsUrlOfDirectory(pluginDir: string, asset: string)
    ensures AssetPath(pluginDir, asset) == AssetUrl(pluginDir + "/", asset)
  {
  }

  // ---------------------------------------------------------------------
  // Database version

  /** The option that stores the database version. */
  function DbVersionOption(): string
  {
    PluginPrefix + "_version"
  }

  /** `get_db_version`: the stored version, "1.0.0" when there is none. */
  function GetDbVersion(t: Table): (v: Value)
    ensures DbVersionOption() !in t ==> v == Str(DefaultDbVersion)
    ensures DbVersionOption() in t ==> v == t[DbVersionOption()]
  {
    Get(t, DbVersionOption(), Str(DefaultDbVersion))
  }

  /** `set_db_version`: stores the version, reporting whether it changed;
      no other option is touched. */
  function SetDbVersion(t: Table, version: string): (r: (bool, Table))
    ensures r.1 == t[DbVersionOption() := Str(version)]
    ensures r.0 <==> GetDbVersion(t) != Str(version) || DbVersionOption() !in t
  {
    Update(t, DbVersionOption(), Str(version))
  }

  /** A stored version is what the next read reports. */
  lemma SetThenGetDbVersion(t: Table, version: string)
    ensures GetDbVersion(SetDbVersion(t, version).1) == Str(version)
    ensures forall n :: n in t && n != DbVersionOption() ==> SetDbVersion(t, version).1[n] == t[n]
  {
  }
}

=== FILE: wp_options.dfy ===
/** The WordPress option table: option name to stored value. */
module WpOptions {
  import opened PhpValue

  type Table = map<string, Value>

  /** `get_option($name, $default)`. */
  function Get(t: Table, name: string, default: Value): (v: Value)
    ensures name in t ==> v == t[name]
    ensures name !in t ==> v == default
  {
    if name in t then t[name] else default
  }

  /** `update_option($name, $v)`: adds or replaces the option. It reports
      `false`, and writes nothing, when the stored value is already `v`.
      WordPress also refuses to write `false` to an absent option; no caller
      here writes `false`. */
  function Update(t: Table, name: string, v: Value): (r: (bool, Table))
    ensures r.1 == t[name := v]
    ensures r.0 <==> !(name in t && t[name] == v)
  {
    if name in t && t[name] == v then (false, t) else (true, t[name := v])
  }

  /** `delete_option($name)`: reports whether there was something to delete. */
  function Delete(t: Table, name: string): (r: (bool, Table))
    ensures name !in r.1
    ensures forall n :: n != name && n in t ==> n in r.1 && r.1[n] == t[n]
    ensures r.1.Keys <= t.Keys
    ensures r.0 <==> name in t
  {
    (name in t, t - {name})
  }
}

=== FILE: wposa.dfy ===
/** The settings-page wrapper `WPOSA`: its section, field and sidebar-card
    registries, the sanitize-callback lookup, the attribute serialiser, the
    prefixed option store and the validation of the reset-form action.
    `esc_attr`, `is_callable`, `call_user_func`, `current_user_can` and
    `wp_verify_nonce` are parameters; the `wposa/get_option` filter is the
    identity. */
module Wposa {
  import opened Wrappers
  import opened PhpArray
  import opened PhpValue
  import WpOptions

  /** What one `WPOSA` instance has registered. `fields` maps the prefixed
      section name to that section's fields, in registration order. */
  datatype State = State(prefix: string, sections: seq<Value>, fields: Arr<seq<Value>>, cards: seq<Value>)

  /** The option that stores a section: "<prefix>_<section>". */
  function OptionName(w: State, section: string): string
  {
    w.prefix + "_" + section
  }

  // ---------------------------------------------------------------------
  // Registries

  /** `set_sections`: a non-array is refused (`false`); an array replaces the
      registered sections by its values, in order. */
  function SetSections(w: State, sections: Value): (r: Option<State>)
    ensures r.None? <==> !sections.Array?
    ensures r.Some? ==> r.value.prefix == w.prefix && r.value.fields == w.fields && r.value.cards == w.cards
    ensures r.Some? ==> |r.value.sections| == |sections.entries| && forall i :: 0 <= i < |sections.entries| ==> r.value.sections[i] == sections.entries[i].1
  {
    match sections
    case Array(es) => Some(w.(sections := Values(es)))
    case _ => None
  }

  /** `add_section`: a non-array is refused; otherwise the section's `id`
      becomes "<prefix>_<id>" and the section is appended after the existing
      ones, which stay as they were. Every other key of the section is kept. */
  function AddSection(w: State, section: Value): (r: Option<State>)
    ensures r.None? <==> !section.Array?
    ensures r.Some? ==> r.value.prefix == w.prefix && r.value.fields == w.fields && r.value.cards == w.cards
    ensures r.Some? ==> |r.value.sections| == |w.sections| + 1 && r.value.sections[..|w.sections|] == w.sections
    ensures r.Some? ==>
      var added := r.value.sections[|w.sections|];
      && Index(added, "id") == Str(OptionName(w, ToPhpString(Index(section, "id"))))
      && forall k :: k != "id" ==> Index(added, k) == Index(section, k)
  {
    match section
    case Array(es) =>
      var id := OptionName(w, ToPhpString(Index(section, "id")));
      var added := Array(Put(es, "id", Str(id)));
      assert Index(added, "id") == Str(id);
      Some(w.(sections := w.sections + [added]))
    case _ => None
  }

  /** `set_fields` for an array of sections: each section's value is read as
      its list of fields (a non-array section value is a list of none). */
  function SetFields(w: State, fields: Value): (r: Option<State>)
    ensures r.None? <==> !fields.Array?
    ensures r.Some? ==> Keys(r.value.fields) == Keys(fields.entries)
    ensures r.Some? ==> r.value.sections == w.sections && r.value.cards == w.cards
  {
    match fields
    case Array(es) => Some(w.(fields := FieldLists(es)))
    case _ => None
  }

  function FieldLists(es: Arr<Value>): (r: Arr<seq<Value>>)
    ensures Keys(r) == Keys(es)
    ensures forall i :: 0 <= i < |es| ==> r[i].1 == (if es[i].1.Array? then Values(es[i].1.entries) else [])
  {
    if |es| == 0 then []
    else
      var fs := if es[0].1.Array? then Values(es[0].1.entries) else [];
      [(es[0].0, fs)] + FieldLists(es[1..])
  }

  /** The defaults `add_field` merges under the caller's arguments. */
  const FieldDefaults: Arr<Value> := [("id", Str("")), ("name", Str("")), ("desc", Str("")), ("type", Str("text"))]

  /** `wp_parse_args($field, $defaults)`: the four default keys come first,
      followed by the other keys the caller gave. */
  function FieldArgs(field: Arr<Value>): (r: Arr<Value>)
    ensures |r| >= 4 && r[0].0 == "id" && r[1].0 == "name" && r[2].0 == "desc" && r[3].0 == "type"
    ensures KeySet(r) == {"id", "name", "desc", "type"} + KeySet(field)
    ensures Distinct(r)
  {
    DefaultKeys();
    var r := Merge(FieldDefaults, field);
    r
  }

  /** Every key the caller gave keeps the caller's value, even `null`. */
  lemma FieldArgsKeepsGiven(field: Arr<Value>)
    requires Distinct(field)
    ensures forall k :: k in KeySet(field) ==> Find(FieldArgs(field), k) == Find(field, k)
  {
  }

  /** A default is used exactly where the caller did not give the key. */
  lemma FieldArgsDefaults(field: Arr<Value>)
    requires Distinct(field)
    ensures "id" !in KeySet(field) ==> Find(FieldArgs(field), "id") == Some(Str(""))
    ensures "name" !in KeySet(field) ==> Find(FieldArgs(field), "name") == Some(Str(""))
    ensures "desc" !in KeySet(field) ==> Find(FieldArgs(field), "desc") == Some(Str(""))
    ensures "type" !in KeySet(field) ==> Find(FieldArgs(field), "type") == Some(Str("text"))
  {
    DefaultKeys();
    DefaultValues();
  }

  lemma DefaultKeys()
    ensures KeySet(FieldDefaults) == {"id", "name", "desc", "type"}
    ensures Distinct(FieldDefaults)
  {
    var d := FieldDefaults;
    assert d[1..][1..][1..][1..] == [];
    assert KeySet(d[1..][1..][1..]) == {"type"};
    assert KeySet(d[1..][1..]) == {"desc", "type"};
    assert KeySet(d[1..]) == {"name", "desc", "type"};
  }

  lemma DefaultValues()
    ensures Find(FieldDefaults, "id") == Some(Str(""))
    ensures Find(FieldDefaults, "name") == Some(Str(""))
    ensures Find(FieldDefaults, "desc") == Some(Str(""))
    ensures Find(FieldDefaults, "type") == Some(Str("text"))
  {
    var d := FieldDefaults;
    assert d[1..][1..][1..] == [("type", Str("text"))];
  }

  /** `add_field`: the field, completed by `FieldArgs`, is appended to the
      list kept under "<prefix>_<section>"; every other section's list is
      unchanged. */
  function AddField(w: State, section: string, field: Arr<Value>): (r: State)
    ensures r.prefix == w.prefix && r.sections == w.sections && r.cards == w.cards
    ensures Find(r.fields, OptionName(w, section)) == Some(Find(w.fields, OptionName(w, section)).GetOr([]) + [Array(FieldArgs(field))])
    ensures forall k :: k != OptionName(w, section) ==> Find(r.fields, k) == Find(w.fields, k)
    ensures Distinct(w.fields) ==> Distinct(r.fields)
  {
    var key := OptionName(w, section);
    var list := Find(w.fields, key).GetOr([]);
    w.(fields := Put(w.fields, key, list + [Array(FieldArgs(field))]))
  }

  /** `add_sidebar_card`. */
  function AddSidebarCard(w: State, card: Arr<Value>): (r: State)
    ensures SidebarCardsTotal(r) == SidebarCardsTotal(w) + 1
    ensures r.cards[..|w.cards|] == w.cards && r.cards[|w.cards|] == Array(card)
    ensures r.(cards := w.cards) == w
  {
    w.(cards := w.cards + [Array(card)])
  }

  /** `get_sidebar_cards_total`. */
  function SidebarCardsTotal(w: State): nat
  {
    |w.cards|
  }

  /** Adding the cards one after the other. */
  function AddSidebarCards(w: State, cards: seq<Arr<Value>>): State
    decreases |cards|
  {
    if |cards| == 0 then w else AddSidebarCards(AddSidebarCard(w, cards[0]), cards[1..])
  }

  /** The total counts every card added, and the cards keep the order they
      were added in, after the ones already there. */
  lemma {:induction false} SidebarCardsTotalCounts(w: State, cards: seq<Arr<Value>>)
    ensures SidebarCardsTotal(AddSidebarCards(w, cards)) == SidebarCardsTotal(w) + |cards|
    ensures AddSidebarCards(w, cards).cards[..|w.cards|] == w.cards
    ensures forall i :: 0 <= i < |cards| ==> AddSidebarCards(w, cards).cards[|w.cards| + i] == Array(cards[i])
    decreases |cards|
  {
    if |cards| > 0 {
      var w1 := AddSidebarCard(w, cards[0]);
      SidebarCardsTotalCounts(w1, cards[1..]);
      var r := AddSidebarCards(w1, cards[1..]).cards;
      assert r[..|w1.cards|][..|w.cards|] == r[..|w.cards|];
      forall i | 0 <= i < |cards| ensures r[|w.cards| + i] == Array(cards[i]) {
        if i == 0 {
          assert r[..|w1.cards|][|w.cards|] == r[|w.cards|];
        } else {
          assert cards[1..][i - 1] == cards[i];
        }
      }
    }
  }

  // ---------------------------------------------------------------------
  // Attributes

  /** One attribute: a `true` value gives the bare escaped name, any other
      value `name="value"`. */
  function RenderAttribute(k: string, v: Value, esc: string -> string): string
  {
    if v == Bool(true) then esc(k) else esc(k) + "=\"" + esc(ToPhpString(v)) + "\""
  }

  /** The entries that produce an attribute: all but those whose value is `false`. */
  function Kept(args: Arr<Value>): (r: Arr<Value>)
    ensures |r| <= |args|
    ensures forall i :: 0 <= i < |r| ==> r[i].1 != Bool(false) && r[i] in args
    ensures (forall i :: 0 <= i < |args| ==> args[i].1 != Bool(false)) ==> r == args
    ensures (forall i :: 0 <= i < |args| ==> args[i].1 == Bool(false)) <==> r == []
  {
    if |args| == 0 then []
    else if args[0].1 == Bool(false) then Kept(args[1..])
    else [args[0]] + Kept(args[1..])
  }

  function AttributeItems(args: Arr<Value>, esc: string -> string): (r: seq<string>)
    ensures |r| == |Kept(args)|
    ensures forall i :: 0 <= i < |r| ==> r[i] == RenderAttribute(Kept(args)[i].0, Kept(args)[i].1, esc)
  {
    if |args| == 0 then []
    else if args[0].1 == Bool(false) then AttributeItems(args[1..], esc)
    else [RenderAttribute(args[0].0, args[0].1, esc)] + AttributeItems(args[1..], esc)
  }

  /** `implode($sep, $xs)`. */
  function Join(xs: seq<string>, sep: string): string
  {
    if |xs| == 0 then "" else if |xs| == 1 then xs[0] else xs[0] + sep + Join(xs[1..], sep)
  }

  /** `convert_array_to_attributes`: the rendered attributes of the entries
      that are not `false`, in input order, separated by single spaces. */
  function ConvertArrayToAttributes(args: Arr<Value>, esc: string -> string): (r: string)
    ensures |Kept(args)| == 0 ==> r == ""
    ensures |Kept(args)| == 1 ==> r == RenderAttribute(Kept(args)[0].0, Kept(args)[0].1, esc)
  {
    Join(AttributeItems(args, esc), " ")
  }

  lemma {:induction false} KeptAppend(a: Arr<Value>, b: Arr<Value>)
    ensures Kept(a + b) == Kept(a) + Kept(b)
    decreases |a|
  {
    if |a| == 0 {
      assert a + b == b;
    } else {
      assert (a + b)[1..] == a[1..] + b;
      KeptAppend(a[1..], b);
    }
  }

  lemma {:induction false} JoinAppend(a: seq<string>, b: seq<string>, sep: string)
    requires |a| > 0 && |b| > 0
    ensures Join(a + b, sep) == Join(a, sep) + sep + Join(b, sep)
    decreases |a|
  {
    assert (a + b)[1..] == a[1..] + b;
    if |a| > 1 {
      JoinAppend(a[1..], b, sep);
    }
  }

  lemma {:induction false} AttributeItemsAppend(a: Arr<Value>, b: Arr<Value>, esc: string -> string)
    ensures AttributeItems(a + b, esc) == AttributeItems(a, esc) + AttributeItems(b, esc)
    decreases |a|
  {
    if |a| == 0 {
      assert a + b == b;
    } else {
      assert (a + b)[0] == a[0];
      assert (a + b)[1..] == a[1..] + b;
      AttributeItemsAppend(a[1..], b, esc);
      var rest := AttributeItems(a[1..], esc);
      if a[0].1 != Bool(false) {
        var item := [RenderAttribute(a[0].0, a[0].1, esc)];
        assert item + (rest + AttributeItems(b, esc)) == (item + rest) + AttributeItems(b, esc);
      }
    }
  }

  /** Serialising two attribute lists one after the other is serialising
      each and separating them by one space (when both produce something). */
  lemma ConvertAppend(a: Arr<Value>, b: Arr<Value>, esc: string -> string)
    requires |Kept(a)| > 0 && |Kept(b)| > 0
    ensures ConvertArrayToAttributes(a + b, esc) == ConvertArrayToAttributes(a, esc) + " " + ConvertArrayToAttributes(b, esc)
  {
    AttributeItemsAppend(a, b, esc);
    JoinAppend(AttributeItems(a, esc), AttributeItems(b, esc), " ");
  }

  /** One entry: `true` gives the bare name, `false` nothing, anything else
      `name="value"` with the value as PHP prints it. */
  lemma ConvertSingleEntry(k: string, v: Value, esc: string -> string)
    ensures v == Bool(true) ==> ConvertArrayToAttributes([(k, v)], esc) == esc(k)
    ensures v == Bool(false) ==> ConvertArrayToAttributes([(k, v)], esc) == ""
    ensures !v.Bool? ==> ConvertArrayToAttributes([(k, v)], esc) == esc(k) + "=\"" + esc(ToPhpString(v)) + "\""
  {
    assert [(k, v)][1..] == [];
  }

  // ---------------------------------------------------------------------
  // Sanitizing

  /** The callback a field names, when `isset` and callable. */
  function CallbackOf(field: Value, isCallable: Value -> bool): (r: Option<Value>)
    ensures r.Some? <==> IsSet(field, "sanitize_callback") && isCallable(Index(field, "sanitize_callback"))
    ensures r.Some? ==> r.value == Index(field, "sanitize_callback")
  {
    var cb := Index(field, "sanitize_callback");
    if cb != Null && isCallable(cb) then Some(cb) else None
  }

  /** A field answers to a slug through its `name` (a loose `==`). */
  predicate NameMatches(field: Value, slug: string)
  {
    LooseEqualsString(Index(field, "name"), slug)
  }

  /** Scanning one section's fields: nothing when no field answers to
      `slug`, otherwise the decision of the first one that does. */
  function ScanFields(fs: seq<Value>, slug: string, isCallable: Value -> bool): (r: Option<Option<Value>>)
    ensures r.Some? && r.value.Some? ==> r.value.value != Null && isCallable(r.value.value)
  {
    if |fs| == 0 then None
    else if NameMatches(fs[0], slug) then Some(CallbackOf(fs[0], isCallable))
    else ScanFields(fs[1..], slug, isCallable)
  }

  /** Scanning the sections in order; the first section with a match decides. */
  function ScanSections(fields: Arr<seq<Value>>, slug: string, isCallable: Value -> bool): (r: Option<Option<Value>>)
    ensures r.Some? && r.value.Some? ==> r.value.value != Null && isCallable(r.value.value)
  {
    if |fields| == 0 then None
    else match ScanFields(fields[0].1, slug, isCallable)
      case Some(d) => Some(d)
      case None => ScanSections(fields[1..], slug, isCallable)
  }

  /** `get_sanitize_callback`: `None` stands for `false`. */
  function GetSanitizeCallback(w: State, slug: string, isCallable: Value -> bool): (r: Option<Value>)
    ensures EmptyString(slug) ==> r == None
    ensures r.Some? ==> r.value != Null && isCallable(r.value)
  {
    if EmptyString(slug) then None else ScanSections(w.fields, slug, isCallable).GetOr(None)
  }

  /** All registered fields, section after section. */
  function Flatten(fields: Arr<seq<Value>>): seq<Value>
  {
    if |fields| == 0 then [] else fields[0].1 + Flatten(fields[1..])
  }

  /** The position of the first element satisfying `p`. */
  function FirstWhere<T>(xs: seq<T>, p: T -> bool): (r: Option<nat>)
    ensures r.Some? ==> r.value < |xs| && p(xs[r.value])
  {
    if |xs| == 0 then None
    else if p(xs[0]) then Some(0)
    else match FirstWhere(xs[1..], p)
      case Some(i) => Some(i + 1)
      case None => None
  }

  /** No element before the one `FirstWhere` finds satisfies `p`, and when
      it finds none, no element does. */
  lemma {:induction false} FirstWhereIsFirst<T>(xs: seq<T>, p: T -> bool)
    ensures FirstWhere(xs, p).Some? ==> forall j :: 0 <= j < FirstWhere(xs, p).value ==> !p(xs[j])
    ensures FirstWhere(xs, p).None? ==> forall j :: 0 <= j < |xs| ==> !p(xs[j])
  {
    if |xs| > 0 && !p(xs[0]) {
      FirstWhereIsFirst(xs[1..], p);
      forall j | 1 <= j < |xs| ensures xs[j] == xs[1..][j - 1] {
      }
    }
  }

  /** Searching a concatenation: the first part's match if it has one, else
      the second part's, shifted past the first part. */
  lemma {:induction false} FirstWhereAppend<T>(a: seq<T>, b: seq<T>, p: T -> bool)
    ensures FirstWhere(a + b, p) ==
      if FirstWhere(a, p).Some? then FirstWhere(a, p)
      else match FirstWhere(b, p) case Some(j) => Some(|a| + j) case None => None
    decreases |a|
  {
    if |a| == 0 {
      assert a + b == b;
    } else {
      assert (a + b)[0] == a[0];
      assert (a + b)[1..] == a[1..] + b;
      FirstWhereAppend(a[1..], b, p);
    }
  }

  /** The position of the first field answering to `slug`. */
  function FirstNamed(fs: seq<Value>, slug: string): (r: Option<nat>)
    ensures r.Some? ==> r.value < |fs| && NameMatches(fs[r.value], slug)
  {
    FirstWhere(fs, (f: Value) => NameMatches(f, slug))
  }

  /** No field before the one `FirstNamed` finds answers to the slug, and
      when it finds none, no field does. */
  lemma FirstNamedIsFirst(fs: seq<Value>, slug: string)
    ensures FirstNamed(fs, slug).Some? ==> forall j :: 0 <= j < FirstNamed(fs, slug).value ==> !NameMatches(fs[j], slug)
    ensures FirstNamed(fs, slug).None? ==> forall j :: 0 <= j < |fs| ==> !NameMatches(fs[j], slug)
  {
    FirstWhereIsFirst(fs, (f: Value) => NameMatches(f, slug));
  }

  /** What `d` makes of the first element satisfying `p`, if there is one. */
  function DecideFirst<T, U>(xs: seq<T>, p: T -> bool, d: T -> U): Option<U>
  {
    match FirstWhere(xs, p)
    case Some(i) => Some(d(xs[i]))
    case None => None
  }

  /** Deciding over a concatenation: the first part decides when it has a
      match, otherwise the second part does. */
  lemma DecideFirstAppend<T, U>(a: seq<T>, b: seq<T>, p: T -> bool, d: T -> U)
    ensures DecideFirst(a + b, p, d) == if FirstWhere(a, p).Some? then DecideFirst(a, p, d) else DecideFirst(b, p, d)
  {
    FirstWhereAppend(a, b, p);
    if FirstWhere(a, p).Some? {
      assert (a + b)[FirstWhere(a, p).value] == a[FirstWhere(a, p).value];
    } else if FirstWhere(b, p).Some? {
      assert (a + b)[|a| + FirstWhere(b, p).value] == b[FirstWhere(b, p).value];
    }
  }

  /** The reference decision: the callback of the first field of all
      sections whose name is `slug`, or none. */
  function FirstMatchDecision(fs: seq<Value>, slug: string, isCallable: Value -> bool): Option<Option<Value>>
  {
    DecideFirst(fs, (f: Value) => NameMatches(f, slug), (f: Value) => CallbackOf(f, isCallable))
  }

  lemma {:induction false} ScanFieldsIsFirstMatch(fs: seq<Value>, slug: string, isCallable: Value -> bool)
    ensures ScanFields(fs, slug, isCallable) == FirstMatchDecision(fs, slug, isCallable)
    decreases |fs|
  {
    if |fs| > 0 && !NameMatches(fs[0], slug) {
      ScanFieldsIsFirstMatch(fs[1..], slug, isCallable);
    }
  }

  lemma {:induction false} ScanSectionsIsFirstMatch(fields: Arr<seq<Value>>, slug: string, isCallable: Value -> bool)
    ensures ScanSections(fields, slug, isCallable) == FirstMatchDecision(Flatten(fields), slug, isCallable)
    decreases |fields|
  {
    if |fields| > 0 {
      ScanFieldsIsFirstMatch(fields[0].1, slug, isCallable);
      DecideFirstAppend(fields[0].1, Flatten(fields[1..]), (f: Value) => NameMatches(f, slug), (f: Value) => CallbackOf(f, isCallable));
      ScanSectionsIsFirstMatch(fields[1..], slug, isCallable);
    }
  }

  /** `get_sanitize_callback` answers with the first field, over all
      sections in registration order, whose `name` is the slug: its callback
      if set and callable, else `false`, without looking further. An empty
      slug, or one that no field is named, gives `false`. */
  lemma GetSanitizeCallbackIsFirstMatch(w: State, slug: string, isCallable: Value -> bool)
    ensures EmptyString(slug) ==> GetSanitizeCallback(w, slug, isCallable) == None
    ensures !EmptyString(slug) ==>
      var fs := Flatten(w.fields);
      match FirstNamed(fs, slug)
      case Some(i) => GetSanitizeCallback(w, slug, isCallable) == CallbackOf(fs[i], isCallable)
      case None => GetSanitizeCallback(w, slug, isCallable) == None
  {
    ScanSectionsIsFirstMatch(w.fields, slug, isCallable);
  }

  /** What `sanitize_fields` stores for one submitted value. */
  function SanitizedValue(w: State, k: string, v: Value, isCallable: Value -> bool, call: (Value, Value) -> Value): Value
  {
    match GetSanitizeCallback(w, k, isCallable)
    case Some(cb) => if Truthy(cb) then call(cb, v) else v
    case None => v
  }

  function SanitizeEntries(w: State, es: Arr<Value>, isCallable: Value -> bool, call: (Value, Value) -> Value): (r: Arr<Value>)
    ensures Keys(r) == Keys(es)
    ensures forall i :: 0 <= i < |es| && GetSanitizeCallback(w, es[i].0, isCallable).None? ==> r[i] == es[i]
    ensures forall i :: 0 <= i < |es| && GetSanitizeCallback(w, es[i].0, isCallable).Some? && Truthy(GetSanitizeCallback(w, es[i].0, isCallable).value) ==>
      r[i].1 == call(GetSanitizeCallback(w, es[i].0, isCallable).value, es[i].1)
  {
    if |es| == 0 then []
    else [(es[0].0, SanitizedValue(w, es[0].0, es[0].1, isCallable, call))] + SanitizeEntries(w, es[1..], isCallable, call)
  }

  /** A callback that `sanitize_fields` calls is registered for `key`. */
  predicate CallbackFor(w: State, key: string, isCallable: Value -> bool)
  {
    GetSanitizeCallback(w, key, isCallable).Some? && Truthy(GetSanitizeCallback(w, key, isCallable).value)
  }

  /** `sanitize_fields`: the same keys in the same order; a value whose key
      has no callback is kept, the others are replaced by the callback's
      result. A submitted value that is not an array is returned as is. */
  function SanitizeFields(w: State, input: Value, isCallable: Value -> bool, call: (Value, Value) -> Value): (r: Value)
    ensures !input.Array? ==> r == input
    ensures input.Array? ==> r.Array? && Keys(r.entries) == Keys(input.entries)
    ensures input.Array? ==> forall i :: 0 <= i < |input.entries| && GetSanitizeCallback(w, input.entries[i].0, isCallable).None? ==>
      r.entries[i] == input.entries[i]
    ensures input.Array? ==> forall i :: 0 <= i < |input.entries| && CallbackFor(w, input.entries[i].0, isCallable) ==>
      r.entries[i].1 == call(GetSanitizeCallback(w, input.entries[i].0, isCallable).value, input.entries[i].1)
  {
    match input
    case Array(es) => Array(SanitizeEntries(w, es, isCallable, call))
    case _ => input
  }

  // ---------------------------------------------------------------------
  // The option store

  /** `str_replace($pat, '', $s)`: every occurrence found scanning left to
      right is removed. */
  function RemoveAll(s: string, pat: string): (r: string)
    ensures |r| <= |s|
    decreases |s|
  {
    if |pat| == 0 || |s| < |pat| then s
    else if s[..|pat|] == pat then RemoveAll(s[|pat|..], pat)
    else [s[0]] + RemoveAll(s[1..], pat)
  }

  /** `pat` occurs in `s` starting at position `i`. */
  predicate OccursAt(s: string, pat: string, i: nat)
  {
    i + |pat| <= |s| && s[i..i + |pat|] == pat
  }

  lemma {:induction false} RemoveAllAbsent(s: string, pat: string)
    requires |pat| > 0
    requires forall i: nat :: !OccursAt(s, pat, i)
    ensures RemoveAll(s, pat) == s
    decreases |s|
  {
    if |s| >= |pat| {
      assert !OccursAt(s, pat, 0);
      forall i: nat
        ensures !OccursAt(s[1..], pat, i)
      {
        assert !OccursAt(s, pat, i + 1);
        if i + |pat| <= |s[1..]| {
          assert s[1..][i..i + |pat|] == s[i + 1..i + 1 + |pat|];
        }
      }
      RemoveAllAbsent(s[1..], pat);
    }
  }

  /** `get_option`: every "<prefix>_" is removed from the section name, the
      option "<prefix>_<section>" is read, and the value under `option` is
      returned when it is set and not null, otherwise `default`. */
  function GetOption(w: State, t: WpOptions.Table, option: string, section: string, default: Value): (r: Value)
    ensures var stored := WpOptions.Get(t, OptionName(w, RemoveAll(section, w.prefix + "_")), Bool(false));
      && (stored.Array? && Find(stored.entries, option).Some? && Find(stored.entries, option).value != Null ==>
            r == Find(stored.entries, option).value)
      && (!stored.Array? || Find(stored.entries, option).None? || Find(stored.entries, option).value == Null ==>
            r == default)
    ensures r == Null ==> default == Null
  {
    var s := RemoveAll(section, w.prefix + "_");
    var stored := WpOptions.Get(t, OptionName(w, s), Bool(false));
    if IsSet(stored, option) then Index(stored, option) else default
  }

  /** A section name with the prefix in front reads the same option as the
      bare name. */
  lemma GetOptionIgnoresPrefix(w: State, t: WpOptions.Table, option: string, section: string, default: Value)
    ensures GetOption(w, t, option, w.prefix + "_" + section, default) == GetOption(w, t, option, section, default)
  {
    var pat := w.prefix + "_";
    assert (pat + section)[..|pat|] == pat;
    assert (pat + section)[|pat|..] == section;
  }

  datatype SetOutcome = Written(changed: bool, table: WpOptions.Table) | Threw

  /** `set_option`: writes into the option "<prefix>_<section>" (the section
      name is used as given). When that option is missing or empty nothing is
      written and the answer is `false`. When it is an array only the key
      `option` changes. A non-empty scalar cannot be indexed: PHP throws. */
  function SetOption(w: State, t: WpOptions.Table, option: string, value: Value, section: string): (r: SetOutcome)
    ensures var stored := WpOptions.Get(t, OptionName(w, section), Bool(false));
      && (!Truthy(stored) ==> r == Written(false, t))
      && (Truthy(stored) && !stored.Array? ==> r == Threw)
      && (Truthy(stored) && stored.Array? ==>
            && r.Written?
            && r.table.Keys == t.Keys
            && (forall n :: n in t && n != OptionName(w, section) ==> r.table[n] == t[n])
            && r.table[OptionName(w, section)].Array?
            && Index(r.table[OptionName(w, section)], option) == value
            && (forall k :: k != option ==> Index(r.table[OptionName(w, section)], k) == Index(stored, k))
            && (option in KeySet(stored.entries) ==> Keys(r.table[OptionName(w, section)].entries) == Keys(stored.entries))
            && (r.changed <==> stored != r.table[OptionName(w, section)]))
  {
    var name := OptionName(w, section);
    var stored := WpOptions.Get(t, name, Bool(false));
    if !Truthy(stored) then Written(false, t)
    else match stored
      case Array(es) =>
        var updated := Array(Put(es, option, value));
        assert Index(updated, option) == value;
        var (changed, t') := WpOptions.Update(t, name, updated);
        Written(changed, t')
      case _ => Threw
  }

  /** Writing a value with `set_option` and reading it back with
      `get_option` under the same bare section name gives the value, provided
      the section already held a non-empty array, the section name contains
      no "<prefix>_", and the value is not null (`isset` hides nulls). */
  lemma SetThenGetOption(w: State, t: WpOptions.Table, option: string, value: Value, section: string, default: Value)
    requires WpOptions.Get(t, OptionName(w, section), Bool(false)).Array?
    requires Truthy(WpOptions.Get(t, OptionName(w, section), Bool(false)))
    requires forall i: nat :: !OccursAt(section, w.prefix + "_", i)
    requires value != Null
    ensures SetOption(w, t, option, value, section).Written?
    ensures GetOption(w, SetOption(w, t, option, value, section).table, option, section, default) == value
  {
    RemoveAllAbsent(section, w.prefix + "_");
  }

  // ---------------------------------------------------------------------
  // Reset form

  datatype Reply = JsonError(message: string) | JsonSuccess(data: string)

  /** `reset_form`: capability, a non-empty section, a non-empty nonce and a
      valid nonce for "<section>-options" are checked in that order; the first
      failure answers with its error and changes nothing. Only when all pass
      is the option named `section` deleted and "ok" sent. */
  function ResetForm(t: WpOptions.Table, canManage: bool, nonce: string, section: string,
                     verifyNonce: (string, string) -> bool): (r: (Reply, WpOptions.Table))
    ensures r.0.JsonSuccess? <==> canManage && !EmptyString(section) && !EmptyString(nonce) && verifyNonce(nonce, section + "-options")
    ensures r.0.JsonSuccess? ==> r.0.data == "ok" && section !in r.1 && r.1 == t - {section}
    ensures r.0.JsonError? ==> r.1 == t
    ensures !canManage ==> r.0 == JsonError("You have no rights to do this")
    ensures canManage && EmptyString(section) ==> r.0 == JsonError("Invalid section name")
    ensures canManage && !EmptyString(section) && !r.0.JsonSuccess? ==> r.0 == JsonError("Invalid nonce")
  {
    if !canManage then (JsonError("You have no rights to do this"), t)
    else if !Truthy(Str(section)) then (JsonError("Invalid section name"), t)
    else if !Truthy(Str(nonce)) then (JsonError("Invalid nonce"), t)
    else if !verifyNonce(nonce, section + "-options") then (JsonError("Invalid nonce"), t)
    else (JsonSuccess("ok"), WpOptions.Delete(t, section).1)
  }

  /** After a successful reset of a section's option, reading any key of
      that section gives the caller's default. */
  lemma ResetThenGetOption(w: State, t: WpOptions.Table, canManage: bool, nonce: string, section: string,
                           verifyNonce: (string, string) -> bool, option: string, default: Value)
    requires forall i: nat :: !OccursAt(section, w.prefix + "_", i)
    requires ResetForm(t, canManage, nonce, OptionName(w, section), verifyNonce).0.JsonSuccess?
    ensures GetOption(w, ResetForm(t, canManage, nonce, OptionName(w, section), verifyNonce).1, option, section, default) == default
  {
    RemoveAllAbsent(section, w.prefix + "_");
  }
}

=== FILE: wrappers.dfy ===
/** Optional values and results, used wherever the PHP code returns `false`,
    `null` or throws instead of producing a value. */
module Wrappers {

  datatype Option<+T> = None | Some(value: T) {

    /** The value, or `default` when there is none (PHP's `??`). */
    function GetOr(default: T): T {
      match this
      case Some(v) => v
      case None => default
    }
  }

  datatype Result<+R, +E> = Ok(value: R) | Err(error: E)
}
